=== FILE: README.md ===
# philifence geofence core, modelled in Dafny

philifence is a geofence service: named *fences* are loaded from GeoJSON files, each fence is
an R-tree of feature polygons, and a query point plus a tolerance in metres returns every
feature of a fence whose polygons contain the point. This project models the sequential core
of that service over mathematical reals and proves its contracts:

- `geometry.dfy` (module `Geometry`): coordinates, rings, `reverse`, the `isClockwise` signed
  sum, the winding-number test with `isLeft`, the ray-casting `inside` test,
  `Polygon.Contains` with holes, `computeBox` and `NewBox` (polygon.go).
- `feature.dfy` (module `Features`): features, their constructors, `AddPoly` and
  `Feature.Contains` (feature.go).
- `tolerance.dfy` (module `ToleranceBox`): the real-arithmetic part of `rectFromCenter`, that
  is, the latitude band, the pole and antimeridian clamps, the longitude normalisation by
  `math.Mod` and the conversion back to degrees (rtree.go).
- `rtree.dfy` (module `RTree`): the grid mapping `lonToUint32`/`latToUint32`, `LowerLeft`/
  `UpperRight`, `Insert`, and the candidate search, over an abstract entry sequence (rtree.go).
- `fence.dfy` (module `Fences`): `Fence.Add`, `Fence.Get`, `Fence.Size` (fence.go).
- `index.dfy` (module `FenceIndex`): `UnsafeFenceIndex` and the `MutexFenceIndex` delegation
  (index.go).
- `geojson.dfy` (module `GeoJson`): `featureAdapter` and `coordinatesAdapter`, over a datatype
  of the six GeoJSON geometry kinds plus "other" (geojson.go).
- `slug.dfy` (module `Slug`) and `ascii.dfy` (module `Ascii`): `sluggify` (util.go).
- `msg.dfy` (module `Msg`): the response envelope (msg.go).
- `results.dfy` and `seqs.dfy`: `Option`/`Result` and flattening lemmas, shared helpers.

Modelling choices:

- `float64` is modelled as `real`. `math.Pi` is an abstract positive constant
  (`ToleranceBox.AbstractPi`), and every property holds for any positive value of it.
  `math.Mod` of a non-negative dividend is `x - y * floor(x / y)`.
- A Go panic is modelled as a precondition. The `[:len-1]` slices of `computeWindingNumber`
  and `isClockwise` need a ring of at least one coordinate. Where a caller stops early (the
  first hole that contains the point, the first polygon that contains it), the precondition
  is a "Defined" predicate: `HolesDefined`, `ContainsDefined`, `GeometryDefined`,
  `CandidatesDefined`, `SearchDefined`, `AdapterDefined`. It follows the evaluation and asks
  only the rings actually reached to be non-empty.
- The Hilbert R-tree is an external library. Its behaviour is an ASSUMPTION here: the tree is
  the sequence of inserted entries, `Insert` appends one entry, and `SearchIntersect` returns,
  in insertion order, exactly the entries whose closed grid rectangle overlaps the query's.
- The fence index is a `map` from names to fence values. Go's `nil` for an absent name is
  `None`, and its `error` is `Result`/`Option<IndexError>`.
- `Keys` is a method that picks the map's names in an unspecified order, as Go's map
  iteration does.
- Strings are `seq<char>`. `strings.ToLower` is modelled on ASCII letters only.
- `filepath.Base` and `filepath.Ext` are modelled for slash-separated paths.

## Behaviour of the code worth knowing

Each point below is what the code does, with the lemma that shows it.

- Pole and antimeridian clamps. `rectFromCenter` widens the longitudes to [-π, π]. The
  normalisation that follows, `Mod(v + 3π, 2π) - π` (rtree.go:126-127), carries the comment
  "normalise to -180..+180°", but it sends π to -π. In exact arithmetic both corners then
  land on longitude -180, so the query box collapses onto that meridian
  (`ToleranceBox.PoleCaseCollapsesLongitude`, `ToleranceBox.AntimeridianCaseCollapsesLongitude`).
- Point features. `Fence.Add` (fence.go:15-20) skips only polygons of length at most 1. So a
  `NewPointFeature` adds nothing (`Fences.PointFeatureNotIndexed`). A GeoJSON MultiPoint
  with two or more positions becomes one polygon of that length and is indexed
  (`GeoJson.MultiPointIsIndexed`).
- Reversal and clockwise. `isClockwise` (polygon.go:119-128) tests `sum >= 0`. Reversal
  negates the sum, so it flips `isClockwise` when the sum is non-zero
  (`Geometry.ReverseFlipsClockwise`). A ring whose sum is zero counts as clockwise both ways
  (`Geometry.ZeroSumClockwiseBothWays`).
- Holes. `Polygon` has a `Holes` field (polygon.go:132) that `Contains` consults, but
  `featureAdapter` (geojson.go:60-93) never fills it. It appends every ring, holes included,
  as a separate polygon with no holes. The exterior is made to satisfy `isClockwise` (signed
  sum >= 0); a hole is reversed when it satisfies `isClockwise`, which leaves a signed sum
  <= 0. As a result the adapted feature contains a point exactly when some ring of the
  document contains it (`GeoJson.PolygonFeatureContainsAnyRing`). In particular, a point
  inside a hole is inside the feature (`GeoJson.HoleRingPointIsContained`).
- Orientation calls. geojson.go calls `isClockwise` and `reverse` on the adapted `*Polygon`,
  but those are methods of its ring (`PolyRing`). The model applies them to the exterior ring,
  which is the only ring `coordinatesAdapter` fills.
- Separators in the slug. `sluggify` (util.go:53-57) keeps each word of [a-z0-9] and turns
  every run of other characters between two words into one dash, dropping runs at either end
  (`Slug.SluggifyJoinsWords`, built from `Slug.SquashRun`).
- Test field name. polygon_test.go names the exterior ring `Exterior`, while polygon.go:131
  names it `Coordinates`. The test lemmas read it as the exterior ring.

## Model

| member | source | states |
|---|---|---|
| Ascii.LowerChar | util.go:56 | lower-casing leaves no upper-case letter; 'A'..'Z' move down by 32 to a lower-case letter and every other character is unchanged |
| Ascii.Lower | util.go:56 | `strings.ToLower` keeps the length and lower-cases position by position |
| Ascii.LowerIdempotent | util.go:56 | lower-casing twice is lower-casing once, and a string without upper-case letters is its own lower-casing |
| Geometry.Reverse | polygon.go:28-32 | the reversed ring has the same length and position i holds the original's position len-1-i |
| Geometry.ReverseInPlace | polygon.go:28-32 | the two-index swap loop produces exactly the reversed sequence |
| Geometry.ReverseReverse | polygon.go:28-32 | reversing twice restores the ring |
| Geometry.ReverseTestRing | polygon_test.go:5-19 | the ring (0,0)..(5,5) reverses to (5,5)..(0,0) |
| Geometry.SignedSumReverse | polygon.go:119-128 | reversing a ring negates the `isClockwise` signed sum |
| Geometry.SignedSum | polygon.go:119-128 | definition: the sum of (b.lon - a.lon) * (b.lat + a.lat) over consecutive pairs a, b of the ring, that is over the edges of `[:len-1]` |
| Geometry.IsClockwise | polygon.go:119-128 | definition: the signed sum over the len-1 edges is >= 0; a non-empty ring is required because `[:len-1]` panics on an empty one |
| Geometry.ReverseFlipsClockwise | polygon.go:119-128 | with a non-zero signed sum, reversal flips `isClockwise` |
| Geometry.ZeroSumClockwiseBothWays | polygon.go:119-128 | a ring with signed sum zero and its reversal both satisfy `isClockwise` |
| Geometry.ClockwiseTestRing | polygon_test.go:21-37 | the Denver test ring is not clockwise and its reversal is |
| Geometry.Crossing | polygon.go:69-81 | an edge adds +1 exactly on an upward crossing with `isLeft > 0`, -1 exactly on a downward crossing with `isLeft < 0`, else 0 |
| Geometry.IsLeft | polygon.go:87-89 | definition: the cross product (t - h) x (q - h), positive when q lies left of the line h -> t |
| Geometry.WindingNumber | polygon.go:66-89 | over the len-1 edges i -> i+1 the winding number lies within ±(len-1) |
| Geometry.ComputeWindingNumber | polygon.go:66-85 | the loop over `[:len-1]` returns the edge-by-edge winding number |
| Geometry.WindingNumberReverse | polygon.go:66-89 | reversing a ring negates its winding number at every point |
| Geometry.ReverseKeepsContainment | polygon.go:35-37 | `PolyRing.Contains` gives the same answer for a ring and its reversal |
| Geometry.RingContains | polygon.go:35-37 | definition: the winding number of the ring around the point is non-zero; a non-empty ring is required as for the winding loop |
| Geometry.SinglePointContainsNothing | polygon.go:35-37 | a one-coordinate ring has no edges and contains no point |
| Geometry.RayCrosses | polygon.go:57-60 | a crossing implies the edge straddles the point's latitude, so the division by `b.lat - a.lat` is reached only when it is non-zero |
| Geometry.Inside | polygon.go:44-55 | rings of fewer than 3 points give false; otherwise the toggling loop answers the parity of the edges crossed, closing edge included |
| Geometry.HoleAround | polygon.go:151-156 | the hole scan finds a hole exactly when some hole's winding number at the point is non-zero |
| Geometry.PolygonContains | polygon.go:147-160 | containment holds iff the exterior ring contains the point and no hole does; with no holes it is the exterior's test |
| Geometry.HoleExcludes | polygon.go:150-156 | a hole around the point forces false |
| Geometry.DiamondContainsCenter | polygon_test.go:57-70 | the unclosed diamond (0,5),(5,0),(5,10),(10,5) contains (5,5) |
| Geometry.ClosedSquareContainment | polygon.go:147-160 | the closed square (0,0),(0,10),(10,10),(10,0),(0,0) contains (5,5) and not (50,50) |
| Geometry.NewBox | polygon.go:175-184 | fails exactly when min.lat > max.lat or min.lon > max.lon, otherwise stores both corners unchanged |
| Geometry.RingBox | polygon.go:91-117 | the box covers every coordinate, never makes `NewBox` fail, and is the zero box for an empty ring |
| Geometry.RingBoxAttained | polygon.go:91-117 | for a non-empty ring each of the four bounds is attained by some coordinate |
| Geometry.DiamondBox | polygon_test.go:39-55 | the diamond's box is (0,0)..(10,10) |
| Geometry.PairBox | rtree.go:133-136 | the box of a two-coordinate ring is the componentwise hull of the two |
| Geometry.PolygonBox | polygon.go:166-168 | a polygon's box is valid and covers its exterior ring |
| Features.NewFeature | feature.go:15-18 | the kind is the geometry type lower-cased character by character; the polygons are kept in order; no properties or CRS |
| Features.NewPolygonFeature | feature.go:20-22 | the kind is "polygon" and the polygons are kept |
| Features.NewLineFeature | feature.go:24-26 | the kind is "line" and the polygons are kept |
| Features.NewPointFeature | feature.go:28-39 | one polygon per coordinate, polygon i being the one-coordinate ring of cs[i]; kind "point"; no properties and no CRS |
| Features.AddPoly | feature.go:41-43 | exactly one polygon is appended at the end, earlier polygons and the other fields unchanged |
| Features.AnyContains | feature.go:45-52 | true iff some polygon of the geometry contains the point |
| Features.FeatureContains | feature.go:45-52 | definition: some polygon of the feature contains the point, under the precondition that every ring the loop reaches is non-empty |
| Features.EmptyFeatureContainsNothing | feature.go:45-52 | a feature with no geometry contains nothing |
| Features.WellFormedDefined | feature.go:45-52 | when every exterior and hole ring is non-empty, `Feature.Contains` never reaches an empty ring |
| Features.AddPolyContains | feature.go:41-52 | after `AddPoly(p)` the feature contains c iff it did before or p does |
| Features.PointFeatureContainsNothing | feature.go:28-35 | a feature built by `NewPointFeature` contains no point |
| Fences.Indexable | fence.go:16-17 | an order-preserving subsequence of the geometry with one element per polygon of length > 1, holding exactly those polygons |
| Fences.EntriesFor | fence.go:15-20 | one entry per polygon, carrying the polygon, its box and the feature as payload |
| Fences.InsertAll | fence.go:15-20 | definition: the Add loop, inserting each polygon of length > 1 in geometry order (its effect is stated by `Fences.InsertAllAppends`) |
| Fences.InsertAllAppends | fence.go:15-20 | the insertion loop appends exactly the entries of the polygons of length > 1, in geometry order |
| Fences.Add | fence.go:15-20 | the tree grows by those entries and `Size` grows by the number of polygons of length > 1 |
| Fences.FenceSize | fence.go:36-38 | definition: the size of the fence's tree |
| Fences.PointFeatureNotIndexed | fence.go:15-20 | adding a `NewPointFeature` leaves the fence unchanged |
| Fences.Matches | fence.go:26-31 | the matches are an order-preserving subsequence of the candidates' features, one per candidate whose feature contains c (a feature reached through several candidates repeats); each contains c, and every candidate whose feature contains c is kept |
| Fences.MatchesAppend | fence.go:26-31 | filtering a concatenation of candidates filters each part and concatenates the results |
| Fences.Get | fence.go:23-34 | every match contains c, the matches are an order-preserving subsequence of the candidates' features, and there is exactly one match per candidate whose feature contains c |
| Fences.GetReturnsStoredFeatures | fence.go:23-34 | every match is the payload of some stored entry |
| Fences.GetFindsOverlappingContainer | fence.go:23-34 | a stored entry whose grid box overlaps the query and whose feature contains c is returned |
| Fences.GetRepeatsFeature | fence.go:23-34 | a feature with two stored polygons overlapping the query appears at least twice in the matches when it contains c |
| Fences.EmptyFenceFindsNothing | fence.go:23-34 | a fence with no entries returns no matches |
| FenceIndex.Set | index.go:31-33 | afterwards the name yields the new fence, other names are unaffected, and the names are the old ones plus this one |
| FenceIndex.Get | index.go:35-37 | yields the stored fence for a held name and `None` (Go's nil) otherwise |
| FenceIndex.SetTwice | index.go:31-33 | setting a name twice keeps the last fence only |
| FenceIndex.Add | index.go:39-46 | an absent name gives NotFound and changes nothing; a present name gives no error and applies `Fence.Add` to that fence only |
| FenceIndex.Search | index.go:48-57 | an absent name gives NotFound; a present name gives exactly that fence's `Get`, all of whose features contain c |
| FenceIndex.SearchAfterSet | index.go:31-57 | searching a name just set searches the fence just stored |
| FenceIndex.Keys | index.go:59-64 | every name exactly once, in some order |
| FenceIndex.NewMutexIndex | index.go:71-73 | the wrapper starts with an empty index |
| FenceIndex.MutexSet | index.go:75-79 | delegates to `Set` of the wrapped index |
| FenceIndex.MutexGet | index.go:81-85 | returns what `Get` of the wrapped index returns |
| FenceIndex.MutexAdd | index.go:87-91 | returns what `Add` of the wrapped index returns and keeps its effect |
| FenceIndex.MutexSearch | index.go:93-97 | returns what `Search` of the wrapped index returns |
| FenceIndex.MutexKeys | index.go:99-103 | every name of the wrapped index exactly once |
| RTree.LonToGridRange | rtree.go:82-85 | longitudes in [-180, 180] map into [0, dim], with the ends at 0 and dim |
| RTree.LatToGridRange | rtree.go:87-90 | latitudes in [-90, 90] map into [0, dim], with the ends at 0 and dim |
| RTree.LonToGrid | rtree.go:82-85 | definition: the floor of dim * ((lon + 180) / 360), which is the truncating `uint64` conversion for every longitude in [-180, 180] |
| RTree.LatToGrid | rtree.go:87-90 | definition: the floor of dim * ((lat + 90) / 180), which is the truncating `uint64` conversion for every latitude in [-90, 90] |
| RTree.LowerLeft | rtree.go:74-76 | definition: the grid point of the box's min corner, longitude as x and latitude as y |
| RTree.UpperRight | rtree.go:78-80 | definition: the grid point of the box's max corner, longitude as x and latitude as y |
| RTree.GridMonotone | rtree.go:83-90 | both grid mappings are monotone |
| RTree.GridOfOrdered | rtree.go:74-80 | for a valid box `LowerLeft` <= `UpperRight` componentwise, x from longitude and y from latitude |
| RTree.Insert | rtree.go:37-40 | the tree grows by one entry at the end holding the polygon, its exterior box and the payload unchanged |
| RTree.Size | rtree.go:33-35 | definition: the number of stored entries |
| RTree.SearchIntersect | rtree.go:42-51 | (assumed library contract) an order-preserving subsequence holding exactly the entries whose grid box overlaps the query, one element per such entry |
| RTree.SearchAppend | rtree.go:42-51 | the search over a concatenation of entries is the concatenation of the searches |
| RTree.SearchSplit | rtree.go:42-51 | two overlapping entries i < j split the search result into a part before j holding entry i and a part starting with entry j |
| RTree.Candidates | rtree.go:53-56 | the candidates are exactly the stored entries overlapping the tolerance rectangle, in insertion order, one per such entry |
| RTree.QueryRect | rtree.go:53-56 | definition: the grid rectangle of rectFromCenter's box around c |
| RTree.EmptyTreeHasNoCandidates | rtree.go:53-56 | an empty tree yields no candidates |
| ToleranceBox.ToDegreesOfPi | rtree.go:15-19 | π radians are 180 degrees and -π are -180 |
| ToleranceBox.ToDegreesMonotone | rtree.go:129-132 | conversion to degrees preserves order, strictly for strict order |
| ToleranceBox.Mod | rtree.go:126-127 | for a positive divisor the remainder lies in [0, divisor) |
| ToleranceBox.ModByQuotient | rtree.go:126-127 | when x / y lies in [k, k+1), `Mod(x, y)` is x - k*y |
| ToleranceBox.Band | rtree.go:98-107 | the latitude band has width 2*meters/earthRadius and is ordered for meters >= 0; the longitude span is ordered |
| ToleranceBox.Clamp | rtree.go:109-124 | north-pole, south-pole and antimeridian clamps each set the listed bounds; without them nothing changes; longitudes end in [-π, π] |
| ToleranceBox.NormaliseLon | rtree.go:126-127 | a clamped longitude normalises into [-π, π) |
| ToleranceBox.NormaliseLonFixesHalfOpenRange | rtree.go:126-127 | normalisation keeps every value of [-π, π) and sends π to -π |
| ToleranceBox.RectFromCenter | rtree.go:93-138 | the query box is valid and never makes `NewBox` fail |
| ToleranceBox.RectFromCenterIsCornerHull | rtree.go:129-136 | the query box is the hull of the two degree corners, with longitudes in [-180, 180) |
| ToleranceBox.PoleCaseCollapsesLongitude | rtree.go:109-127 | when the band crosses a pole both box longitudes are -180 |
| ToleranceBox.AntimeridianCaseCollapsesLongitude | rtree.go:121-127 | when the longitude span crosses ±π both box longitudes are -180 |
| ToleranceBox.FullCircleCollapses | rtree.go:126-132 | clamped longitudes -π and π both become -180 degrees |
| ToleranceBox.InteriorCaseIsCentredBand | rtree.go:98-136 | away from poles and the antimeridian the box is the unclamped band converted to degrees |
| GeoJson.AdaptRing | geojson.go:106-115 | length kept; position i becomes lat = y (point[1]) and lon = x (point[0]) |
| GeoJson.CoordinatesAdapter | geojson.go:106-115 | one polygon, no holes, whose exterior is the positions in order with longitude first |
| GeoJson.AdaptRingRoundTrip | geojson.go:106-115 | adapting positions and writing them back longitude first is the identity both ways |
| GeoJson.OrientExterior | geojson.go:64-68 | the exterior ends clockwise; it is the ring itself if already clockwise and its reversal otherwise |
| GeoJson.OrientHole | geojson.go:69-73 | a hole ends with signed sum <= 0; it is the reversal of the ring if the ring is clockwise and the ring itself otherwise |
| GeoJson.Orient | geojson.go:64-73 | the exterior flag selects the rule: kept when its clockwise test equals the flag, reversed otherwise |
| GeoJson.OrientKeepsContainment | geojson.go:64-73 | orientation does not change which points a ring contains |
| GeoJson.AdaptRings | geojson.go:60-75 | one hole-free polygon per ring in ring order, each of the ring's length and the ring or its reversal; the first clockwise, the rest with signed sum <= 0 |
| GeoJson.AdaptRingsOrientation | geojson.go:60-75 | the first ring is kept if clockwise and reversed otherwise; every later ring is reversed if clockwise and kept otherwise |
| GeoJson.AdaptMulti | geojson.go:76-93 | one hole-free polygon per ring across all members, so the count is the total ring count |
| GeoJson.MultiMemberAdapted | geojson.go:76-93 | member j's polygons sit, as a contiguous block, after the rings of the members before it, each member oriented on its own |
| GeoJson.MultiMemberExteriorClockwise | geojson.go:77-85 | the first ring of every member is treated as exterior and ends clockwise |
| GeoJson.AdaptGeometry | geojson.go:45-93 | Point, LineString, MultiPoint yield one polygon; MultiLineString one per line; Polygon one per ring; MultiPolygon one per ring of every member |
| GeoJson.TypeName | geojson.go:34 | definition: the GeoJSON type string of each geometry kind ("Point", "LineString", "MultiPoint", "MultiLineString", "Polygon", "MultiPolygon"), and the stored name for any other kind |
| GeoJson.FeatureAdapter | geojson.go:26-99 | succeeds exactly when there is a geometry of one of the six known kinds and no getter error; nil geometry or a getter error fails with the invalid-feature error and an unknown kind with its type name; on success the kind is the type string as written, the polygons are those of the type switch, "id" is set only on non-nil properties, and the CRS is copied only then |
| GeoJson.PolygonRingsBecomePolygons | geojson.go:60-75 | a Polygon with non-empty rings adapts to one hole-free polygon per ring, exterior clockwise and holes non-positive, every ring non-empty |
| GeoJson.PolygonFeatureContainsAnyRing | geojson.go:60-75 | the adapted Polygon feature contains a point iff some ring of the document, exterior or hole, contains it |
| GeoJson.HoleRingPointIsContained | geojson.go:69-74 | a point inside a hole ring is inside the adapted feature |
| GeoJson.MultiPointIsIndexed | geojson.go:52-54 | a MultiPoint of two or more positions becomes one polygon of that length, which Fence.Add indexes |
| Slug.Base | util.go:54 | the base name is non-empty and is "/" or free of slashes |
| Slug.BaseIgnoresDirectory | util.go:54 | only the element after the last slash matters |
| Slug.Ext | util.go:55 | the extension is a suffix that is empty or starts with '.' and has no slash |
| Slug.ExtFromLastDot | util.go:55 | the extension starts at the last dot of the last element |
| Slug.Stem | util.go:55 | the stem followed by the extension is the name |
| Slug.StemDropsExtension | util.go:55 | "name.ext" loses exactly ".ext" |
| Slug.Squash | util.go:56 | the replacement has only [a-z0-9] and '-' with no "--", and starts with '-' iff the input starts with a non-slug character |
| Slug.SquashKeepsSlugChars | util.go:56 | deleting dashes from the replacement gives the input's [a-z0-9] characters in order |
| Slug.SquashSlugPrefix | util.go:56 | a leading run of [a-z0-9] characters passes through unchanged |
| Slug.SquashWordStep | util.go:56 | a leading [a-z0-9] character is kept and the rest is replaced on its own |
| Slug.SquashSeparatorStep | util.go:56 | a leading other character and the rest of its run become one dash |
| Slug.SquashTwoWords | util.go:56 | two words separated by one other character become word-word |
| Slug.TwoWordsSlug | util.go:56 | two words separated by one other character slug to word-word |
| Slug.DashFreeEndsTrim | util.go:56 | text with no dash at either end is not changed by trimming dashes |
| Slug.TrailingDashTrim | util.go:56 | trimming removes exactly one dash appended to text with no dash at either end |
| Slug.DropNonWord | util.go:56 | skipping a run of non-[a-z0-9] characters stops exactly at the next word |
| Slug.SquashSeparator | util.go:56 | a run of non-[a-z0-9] characters before a word or at the end becomes exactly one dash |
| Slug.SquashRun | util.go:56 | a word, a separator run and the rest become the word, one dash and the replacement of the rest |
| Slug.TrimRightAppend | util.go:56 | trailing trimming of x + y stays within y when y starts with another character |
| Slug.SlugOfLastWord | util.go:56 | a last word followed by any separator run slugs to the word itself |
| Slug.SlugOfWords | util.go:56 | words with separator runs between them and after them slug to the words joined by single dashes |
| Slug.SlugIgnoresLeadingRun | util.go:56 | a leading separator run does not change the slug |
| Slug.SlugOfText | util.go:56 | optional leading run, words with separator runs between them, optional trailing run: the slug is the words joined by single dashes |
| Slug.SquashFixesSlug | util.go:56 | slug-shaped text that does not start with a lone dash is its own replacement |
| Slug.TrimRight | util.go:56 | the result is a prefix of the input, everything removed is the given character, and the result does not end with it |
| Slug.TrimDashes | util.go:56 | the trimmed text neither starts nor ends with '-' and is a prefix of the input with its leading dashes removed |
| Slug.TrimKeepsShape | util.go:56 | trimming keeps the slug shape |
| Slug.TrimKeepsNonDashes | util.go:56 | trimming removes only dashes |
| Slug.Sluggify | util.go:53-57 | the slug has only [a-z0-9] and '-', no "--", and no dash at either end |
| Slug.SluggifyJoinsWords | util.go:53-57 | when the lower-cased stem of the base name is words separated by runs of other characters, the slug is those words joined by single dashes |
| Slug.SluggifyDashFree | util.go:53-57 | deleting dashes from the slug gives the lower-cased stem of the base name with every non-[a-z0-9] character removed, in order |
| Slug.NoSlugCharsGivesEmpty | util.go:53-57 | a base name without [a-z0-9] characters gives "" |
| Slug.EmptySlug | util.go:53-57 | the empty path, whose base name is ".", gives "" |
| Slug.SlugIsOwnStem | util.go:54-55 | a non-empty slug is its own base name and stem |
| Slug.NoSlashIsOwnBase | util.go:54 | a non-empty name without a slash is its own base name |
| Slug.NoDotHasNoExt | util.go:55 | a name without a dot has no extension |
| Slug.DotHasEmptyStem | util.go:55 | the stem of "." is empty |
| Slug.SlugPathStepsFix | util.go:54-56 | base name, stem and lower-casing leave a non-empty slug unchanged |
| Slug.SlugTextStepsFix | util.go:56 | replacement and trimming leave a trimmed slug unchanged |
| Slug.SluggifyIdempotent | util.go:53-57 | sluggify applied to its own output changes nothing |
| Slug.ManilaCity | util.go:53-57 | "dir/Manila City.json" becomes "manila-city" |
| Msg.NewPointMessage | msg.go:21-30 | a "Feature" of geometry "Point" whose coordinates are exactly [c.lon, c.lat], properties passed through |
| Msg.NewResponseMessage | msg.go:32-37 | the query is the point message and the result is the given list, same order and length |
| Msg.PointMessageRoundTrip | msg.go:27 | feeding the message coordinates back through `coordinatesAdapter` recovers c |
| Msg.PositionRoundTrip | msg.go:21-30 | a position adapted to a coordinate and written into a message comes back unchanged |

## Left out

- http.go: HTTP routing, body reading, query parsing, JSON writing and profiling endpoints are transport I/O.
- cli/cli.go: flag parsing and process start and exit.
- `MutexFenceIndex` locking: only the delegation is modelled; the locks exist for concurrency.
- `LoadIndex` (index.go:105-140): filesystem glob, channels and fatal logging.
- `readGeoJson`, `unmarshalFeature`, `publishFeatureCollection`: file reading, JSON decoding, and a goroutine with a channel.
- The geojson library's types and CRS objects are replaced by the `GeoGeometry` datatype and an opaque `Value`.
- Feature properties are values, so the adapter's write of "id" into the decoded document's own property map (Go map aliasing) is not modelled; nor is sharing one `*Fence` under two names.
- ToleranceBox.RectFromCenter: the longitude half-width lonΔ comes from `asin`/`acos` (rtree.go:103-104) and is an input (`lonDelta >= 0`, the range of `acos`), not computed.
- float64 rounding, NaN and infinities, and the precision of `math.Mod` are not modelled: arithmetic is on reals.
- Slug.Squash: its own contract states the shape of the result only; where the dashes go is stated by `Slug.SquashSeparator`, `Slug.SquashRun` and `Slug.SquashSlugPrefix`, which together fix the result of any text cut into words and the runs of other characters between them.
- Slug.Sluggify: its own contract states the shape of the slug only; its value is fixed by `Slug.SluggifyJoinsWords` and `Slug.NoSlugCharsGivesEmpty`.
- RTree.SearchIntersect: the Hilbert R-tree's search is an assumed contract (order-preserving filter by closed grid overlap); Hilbert ordering and node splitting are not modelled, and the result order of the real library may differ.
- RTree.LonToGrid: the `uint64` conversion is modelled as the floor of a real; Go's conversion of out-of-range or negative values is implementation-defined and not modelled.
- RTree.Dim: written out as 0x8000_0000 rather than derived from `1 << (Resolution - 1)`.
- `strings.ToLower` on non-ASCII letters (Unicode case folding): only 'A'..'Z' are lower-cased.
- Slug.Base: `filepath.Base`/`filepath.Ext` are modelled for slash-separated paths only, not Windows volume names or backslashes.
- util.go logging and panic helpers (`info`, `warn`, `fatal`, `check`, `assert`, `sprintf`, `errorf`); a panic of `check` is a precondition instead.
- `Coordinate.String` formatting (coordinate.go).
- `PolyRing.Add`, `MakePolyRing`, `MakePoly`, `MakeFeature`, `Polygon.Add`: constructors and appends on mutable slices, subsumed by sequence values.

=== FILE: ascii.dfy ===
/** ASCII character classes and lower-casing, as `strings.ToLower` behaves on ASCII text. */
module Ascii {

  predicate IsUpper(c: char) { 'A' <= c <= 'Z' }

  predicate IsLower(c: char) { 'a' <= c <= 'z' }

  predicate IsDigit(c: char) { '0' <= c <= '9' }

  /** The characters the slug pattern `[^a-z0-9]+` does not match. */
  predicate IsSlugChar(c: char) { IsLower(c) || IsDigit(c) }

  /** Lower-cases one character: only 'A'..'Z' change. */
  function LowerChar(c: char): (d: char)
    ensures !IsUpper(d)
    ensures IsUpper(c) ==> IsLower(d) && d as int - c as int == 32
    ensures !IsUpper(c) ==> d == c
  {
    if IsUpper(c) then (c as int + 32) as char else c
  }

  /** Lower-cases a string character by character. */
  function Lower(s: string): (t: string)
    ensures |t| == |s|
    ensures forall i :: 0 <= i < |s| ==> t[i] == LowerChar(s[i])
  {
    if |s| == 0 then "" else [LowerChar(s[0])] + Lower(s[1..])
  }

  /** Lower-casing leaves a string with no upper-case letter unchanged, so it is idempotent. */
  lemma LowerIdempotent(s: string)
    ensures Lower(Lower(s)) == Lower(s)
    ensures (forall i :: 0 <= i < |s| ==> !IsUpper(s[i])) ==> Lower(s) == s
  {
  }
}

=== FILE: feature.dfy ===
/** Features (feature.go): a geometry kind tag, a list of polygons and an opaque property map. */
module Features {
  import opened Results
  import opened Geometry
  import Ascii

  /** A property value, the `interface{}` of a decoded JSON document. */
  datatype Value =
    | Null
    | Bool(b: bool)
    | Number(n: real)
    | Text(s: string)
    | List(items: seq<Value>)
    | Object(fields: map<string, Value>)

  /** A property map that may be `nil`. */
  type Properties = Option<map<string, Value>>

  /** Feature: its polygons, the kind tag, the coordinate reference system and the properties. */
  datatype Feature = Feature(geometry: seq<Polygon>, kind: string, crs: Option<Value>, properties: Properties)

  /** NewFeature: the kind is the lower-cased geometry type; the polygons are kept in order. */
  function NewFeature(geometryType: string, geometry: seq<Polygon>): (f: Feature)
    ensures f.geometry == geometry
    ensures |f.kind| == |geometryType|
    ensures forall i :: 0 <= i < |f.kind| ==> !Ascii.IsUpper(f.kind[i])
    ensures forall i :: 0 <= i < |f.kind| ==> f.kind[i] == Ascii.LowerChar(geometryType[i])
    ensures f.crs == None && f.properties == None
  {
    Feature(geometry, Ascii.Lower(geometryType), None, None)
  }

  function NewPolygonFeature(geometry: seq<Polygon>): (f: Feature)
    ensures f.kind == "polygon" && f.geometry == geometry
  {
    NewFeature("polygon", geometry)
  }

  function NewLineFeature(geometry: seq<Polygon>): (f: Feature)
    ensures f.kind == "line" && f.geometry == geometry
  {
    NewFeature("line", geometry)
  }

  /** NewPointFeature: one single-coordinate polygon per point, in order. */
  function NewPointFeature(cs: seq<Coordinate>): (f: Feature)
    ensures f.kind == "point"
    ensures |f.geometry| == |cs|
    ensures forall i :: 0 <= i < |cs| ==> f.geometry[i] == Polygon([cs[i]], [])
    ensures f.properties == None && f.crs == None
  {
    Feature(seq(|cs|, i requires 0 <= i < |cs| => Polygon([cs[i]], [])), "point", None, None)
  }

  /** AddPoly: appends one polygon and changes nothing else. */
  function AddPoly(f: Feature, p: Polygon): (g: Feature)
    ensures |g.geometry| == |f.geometry| + 1
    ensures g.geometry[..|f.geometry|] == f.geometry && g.geometry[|f.geometry|] == p
    ensures g.kind == f.kind && g.crs == f.crs && g.properties == f.properties
  {
    f.(geometry := f.geometry + [p])
  }

  /** The loop of Feature.Contains runs without panicking: it reads polygons in order and
      stops at the first that contains c. */
  predicate GeometryDefined(gs: seq<Polygon>, c: Coordinate)
    decreases |gs|
  {
    |gs| == 0 || (ContainsDefined(gs[0], c) && (!PolygonContains(gs[0], c) ==> GeometryDefined(gs[1..], c)))
  }

  /** The loop of Feature.Contains with its early return. */
  function AnyContains(gs: seq<Polygon>, c: Coordinate): (found: bool)
    requires GeometryDefined(gs, c)
    ensures found <==> exists i :: 0 <= i < |gs| && ContainsDefined(gs[i], c) && PolygonContains(gs[i], c)
    decreases |gs|
  {
    if |gs| == 0 then false
    else if PolygonContains(gs[0], c) then true
    else
      var rest := AnyContains(gs[1..], c);
      assert forall i :: 1 <= i < |gs| ==> gs[i] == gs[1..][i - 1];
      rest
  }

  /** Feature.Contains: some polygon of the feature contains c. */
  predicate FeatureContains(f: Feature, c: Coordinate)
    requires GeometryDefined(f.geometry, c)
  {
    AnyContains(f.geometry, c)
  }

  /** A feature without polygons contains nothing. */
  lemma EmptyFeatureContainsNothing(f: Feature, c: Coordinate)
    requires f.geometry == []
    ensures GeometryDefined(f.geometry, c) && !FeatureContains(f, c)
  {
  }

  /** Every ring of every polygon is non-empty: Feature.Contains can never panic. */
  predicate WellFormed(f: Feature)
  {
    forall i :: 0 <= i < |f.geometry| ==> WellFormedPolygon(f.geometry[i])
  }

  predicate WellFormedPolygon(p: Polygon)
  {
    |p.exterior| >= 1 && forall k :: 0 <= k < |p.holes| ==> |p.holes[k]| >= 1
  }

  lemma {:induction false} WellFormedHolesDefined(holes: seq<Ring>, c: Coordinate)
    requires forall k :: 0 <= k < |holes| ==> |holes[k]| >= 1
    ensures HolesDefined(holes, c)
    decreases |holes|
  {
    if |holes| > 0 {
      WellFormedHolesDefined(holes[1..], c);
    }
  }

  /** On a well-formed feature, Feature.Contains is defined at every point. */
  lemma {:induction false} WellFormedDefined(gs: seq<Polygon>, c: Coordinate)
    requires forall i :: 0 <= i < |gs| ==> WellFormedPolygon(gs[i])
    ensures GeometryDefined(gs, c)
    decreases |gs|
  {
    if |gs| > 0 {
      WellFormedHolesDefined(gs[0].holes, c);
      WellFormedDefined(gs[1..], c);
    }
  }

  /** After AddPoly, the feature contains c exactly when it did before or the new polygon does. */
  lemma {:induction false} AddPolyContains(f: Feature, p: Polygon, c: Coordinate)
    requires GeometryDefined(f.geometry, c) && ContainsDefined(p, c)
    ensures GeometryDefined(AddPoly(f, p).geometry, c)
    ensures FeatureContains(AddPoly(f, p), c) <==> FeatureContains(f, c) || PolygonContains(p, c)
  {
    AppendDefined(f.geometry, p, c);
  }

  lemma {:induction false} AppendDefined(gs: seq<Polygon>, p: Polygon, c: Coordinate)
    requires GeometryDefined(gs, c) && ContainsDefined(p, c)
    ensures GeometryDefined(gs + [p], c)
    ensures AnyContains(gs + [p], c) <==> AnyContains(gs, c) || PolygonContains(p, c)
    decreases |gs|
  {
    if |gs| == 0 {
      assert gs + [p] == [p];
      assert [p][1..] == [];
    } else {
      assert (gs + [p])[0] == gs[0];
      assert (gs + [p])[1..] == gs[1..] + [p];
      if !PolygonContains(gs[0], c) {
        AppendDefined(gs[1..], p, c);
      }
    }
  }

  /** A point feature is defined at every c and contains nothing: its polygons have one point. */
  lemma {:induction false} PointFeatureContainsNothing(cs: seq<Coordinate>, c: Coordinate)
    ensures GeometryDefined(NewPointFeature(cs).geometry, c)
    ensures !FeatureContains(NewPointFeature(cs), c)
  {
    var f := NewPointFeature(cs);
    forall i | 0 <= i < |f.geometry|
      ensures WellFormedPolygon(f.geometry[i]) && !PolygonContains(f.geometry[i], c)
    {
      SinglePointContainsNothing(cs[i], c);
    }
    WellFormedDefined(f.geometry, c);
  }
}

=== FILE: fence.dfy ===
/** Fences (fence.go): an R-tree of feature polygons, searched by box and then filtered by
    exact containment. */
module Fences {
  import opened Geometry
  import opened Features
  import opened RTree
  import Seqs

  datatype Fence = Fence(tree: Tree)

  const EmptyFence: Fence := Fence(EmptyTree)

  /** Fence.Size: the number of entries in the tree. */
  function FenceSize(fence: Fence): nat
  {
    Size(fence.tree)
  }

  /** How many of the polygons have an exterior ring of more than one point. */
  function IndexableCount(gs: seq<Polygon>): (n: nat)
    ensures n <= |gs|
  {
    if |gs| == 0 then 0 else (if |gs[0].exterior| > 1 then 1 else 0) + IndexableCount(gs[1..])
  }

  /** The polygons Fence.Add indexes: those whose exterior ring has more than one point, in
      order and each once per position. */
  function Indexable(gs: seq<Polygon>): (r: seq<Polygon>)
    ensures |r| == IndexableCount(gs)
    ensures Subsequence(r, gs)
    ensures forall p :: p in r <==> p in gs && |p.exterior| > 1
  {
    if |gs| == 0 then []
    else
      var rest := Indexable(gs[1..]);
      assert forall p :: p in gs <==> p == gs[0] || p in gs[1..];
      if |gs[0].exterior| > 1 then [gs[0]] + rest else rest
  }

  /** The entries Fence.Add should produce for polygons gs of feature f, in order. */
  function EntriesFor(gs: seq<Polygon>, f: Feature): (es: seq<Entry>)
    ensures |es| == |gs|
    ensures forall i :: 0 <= i < |gs| ==> es[i] == Entry(gs[i], PolygonBox(gs[i]), f)
  {
    if |gs| == 0 then [] else [Entry(gs[0], PolygonBox(gs[0]), f)] + EntriesFor(gs[1..], f)
  }

  /** The loop of Fence.Add: each polygon with more than one point is inserted in turn. */
  function InsertAll(t: Tree, gs: seq<Polygon>, f: Feature): Tree
    decreases |gs|
  {
    if |gs| == 0 then t
    else
      var t' := if |gs[0].exterior| > 1 then Insert(t, gs[0], f) else t;
      InsertAll(t', gs[1..], f)
  }

  /** The loop appends exactly the entries of the indexable polygons, in geometry order. */
  lemma {:induction false} InsertAllAppends(t: Tree, gs: seq<Polygon>, f: Feature)
    ensures InsertAll(t, gs, f).entries == t.entries + EntriesFor(Indexable(gs), f)
    decreases |gs|
  {
    if |gs| == 0 {
      assert t.entries + [] == t.entries;
    } else if |gs[0].exterior| > 1 {
      var e := Entry(gs[0], PolygonBox(gs[0]), f);
      var t' := Tree(t.entries + [e]);
      InsertAllAppends(t', gs[1..], f);
      IndexedHead(gs, f);
      Seqs.AppendAssociative(t.entries, [e], EntriesFor(Indexable(gs[1..]), f));
    } else {
      InsertAllAppends(t, gs[1..], f);
    }
  }

  /** When the first polygon is indexed, its entry heads the entries of the rest. */
  lemma IndexedHead(gs: seq<Polygon>, f: Feature)
    requires |gs| > 0 && |gs[0].exterior| > 1
    ensures EntriesFor(Indexable(gs), f) == [Entry(gs[0], PolygonBox(gs[0]), f)] + EntriesFor(Indexable(gs[1..]), f)
  {
    var rest := Indexable(gs[1..]);
    assert Indexable(gs) == [gs[0]] + rest;
    assert ([gs[0]] + rest)[1..] == rest;
  }

  /** Fence.Add */
  function Add(fence: Fence, f: Feature): (g: Fence)
    ensures g.tree.entries == fence.tree.entries + EntriesFor(Indexable(f.geometry), f)
    ensures FenceSize(g) == FenceSize(fence) + |Indexable(f.geometry)|
  {
    InsertAllAppends(fence.tree, f.geometry, f);
    Fence(InsertAll(fence.tree, f.geometry, f))
  }

  /** Adding a point feature changes nothing: none of its one-point polygons is indexed. */
  lemma PointFeatureNotIndexed(fence: Fence, cs: seq<Coordinate>)
    ensures Add(fence, NewPointFeature(cs)) == fence
  {
    var f := NewPointFeature(cs);
    assert forall p :: p in f.geometry ==> |p.exterior| == 1;
    assert fence.tree.entries + [] == fence.tree.entries;
  }

  /** Every polygon of every candidate's feature can be evaluated by Contains without panicking. */
  predicate CandidatesDefined(nodes: seq<Entry>, c: Coordinate)
  {
    forall e :: e in nodes ==> GeometryDefined(e.feature.geometry, c)
  }

  /** The features of a sequence of entries, in order. */
  function FeaturesOf(nodes: seq<Entry>): (fs: seq<Feature>)
    ensures |fs| == |nodes|
    ensures forall i :: 0 <= i < |nodes| ==> fs[i] == nodes[i].feature
  {
    if |nodes| == 0 then [] else [nodes[0].feature] + FeaturesOf(nodes[1..])
  }

  /** How many candidates carry a feature that contains c. */
  function ContainingCount(nodes: seq<Entry>, c: Coordinate): (n: nat)
    requires CandidatesDefined(nodes, c)
    ensures n <= |nodes|
  {
    if |nodes| == 0 then 0
    else
      assert nodes[0] in nodes;
      assert forall e :: e in nodes[1..] ==> e in nodes;
      (if FeatureContains(nodes[0].feature, c) then 1 else 0) + ContainingCount(nodes[1..], c)
  }

  /** The filter loop of Fence.Get: each candidate's feature that contains c, in candidate order,
      once per candidate (a feature with several matching polygons appears several times). */
  function Matches(nodes: seq<Entry>, c: Coordinate): (ms: seq<Feature>)
    requires CandidatesDefined(nodes, c)
    ensures |ms| == ContainingCount(nodes, c)
    ensures Subsequence(ms, FeaturesOf(nodes))
    ensures forall m :: m in ms ==> GeometryDefined(m.geometry, c) && FeatureContains(m, c)
    ensures forall i :: 0 <= i < |nodes| && FeatureContains(nodes[i].feature, c) ==> nodes[i].feature in ms
  {
    if |nodes| == 0 then []
    else
      assert nodes[0] in nodes;
      assert forall e :: e in nodes[1..] ==> e in nodes;
      var rest := Matches(nodes[1..], c);
      assert FeaturesOf(nodes)[1..] == FeaturesOf(nodes[1..]);
      assert forall i :: 1 <= i < |nodes| ==> nodes[i] == nodes[1..][i - 1];
      if FeatureContains(nodes[0].feature, c) then [nodes[0].feature] + rest else rest
  }

  /** Filtering a concatenation filters each part in turn. */
  lemma {:induction false} MatchesAppend(a: seq<Entry>, b: seq<Entry>, c: Coordinate)
    requires CandidatesDefined(a + b, c)
    ensures CandidatesDefined(a, c) && CandidatesDefined(b, c)
    ensures Matches(a + b, c) == Matches(a, c) + Matches(b, c)
    decreases |a|
  {
    DefinedParts(a, b, c);
    if |a| == 0 {
      assert a + b == b;
    } else {
      var ab := a + b;
      assert ab[..1] == a[..1] && ab[1..] == a[1..] + b;
      MatchesCons(ab, c);
      MatchesCons(a, c);
      DefinedParts(a[..1], a[1..], c);
      DefinedParts(a[1..], b, c);
      MatchesAppend(a[1..], b, c);
      Seqs.AppendAssociative(Matches(a[..1], c), Matches(a[1..], c), Matches(b, c));
    }
  }

  lemma DefinedParts(a: seq<Entry>, b: seq<Entry>, c: Coordinate)
    requires CandidatesDefined(a + b, c)
    ensures CandidatesDefined(a, c) && CandidatesDefined(b, c)
  {
    assert forall e :: e in a ==> e in a + b;
    assert forall e :: e in b ==> e in a + b;
  }

  /** The first candidate is filtered ahead of the rest. */
  lemma MatchesCons(s: seq<Entry>, c: Coordinate)
    requires |s| > 0 && CandidatesDefined(s, c)
    ensures CandidatesDefined(s[..1], c) && CandidatesDefined(s[1..], c)
    ensures Matches(s, c) == Matches(s[..1], c) + Matches(s[1..], c)
  {
    assert s == s[..1] + s[1..];
    DefinedParts(s[..1], s[1..], c);
    assert s[..1][1..] == [];
  }

  /** Fence.Get: the features of the candidate entries around c that contain c. */
  function Get(fence: Fence, c: Coordinate, meters: real, lonDelta: real): (ms: seq<Feature>)
    requires lonDelta >= 0.0
    requires CandidatesDefined(Candidates(fence.tree, c, meters, lonDelta), c)
    ensures forall m :: m in ms ==> GeometryDefined(m.geometry, c) && FeatureContains(m, c)
    ensures Subsequence(ms, FeaturesOf(Candidates(fence.tree, c, meters, lonDelta)))
    ensures |ms| == ContainingCount(Candidates(fence.tree, c, meters, lonDelta), c)
  {
    Matches(Candidates(fence.tree, c, meters, lonDelta), c)
  }

  /** Every result of Get is the feature of some entry in the fence. */
  lemma GetReturnsStoredFeatures(fence: Fence, c: Coordinate, meters: real, lonDelta: real)
    requires lonDelta >= 0.0
    requires CandidatesDefined(Candidates(fence.tree, c, meters, lonDelta), c)
    ensures forall m :: m in Get(fence, c, meters, lonDelta) ==> exists e :: e in fence.tree.entries && e.feature == m
  {
    var nodes := Candidates(fence.tree, c, meters, lonDelta);
    var ms := Get(fence, c, meters, lonDelta);
    SubsequenceMembers(ms, FeaturesOf(nodes));
    forall m | m in ms
      ensures exists e :: e in fence.tree.entries && e.feature == m
    {
      var i :| 0 <= i < |nodes| && FeaturesOf(nodes)[i] == m;
      assert nodes[i] in nodes;
    }
  }

  /** Under the assumed search contract, a stored entry whose feature contains c and whose grid
      rectangle meets the query rectangle is found. */
  lemma GetFindsOverlappingContainer(fence: Fence, c: Coordinate, meters: real, lonDelta: real, e: Entry)
    requires lonDelta >= 0.0
    requires CandidatesDefined(Candidates(fence.tree, c, meters, lonDelta), c)
    requires e in fence.tree.entries
    requires Overlaps(GridOf(e.box), QueryRect(c, meters, lonDelta))
    requires GeometryDefined(e.feature.geometry, c) && FeatureContains(e.feature, c)
    ensures e.feature in Get(fence, c, meters, lonDelta)
  {
    var nodes := Candidates(fence.tree, c, meters, lonDelta);
    assert e in nodes;
    var i :| 0 <= i < |nodes| && nodes[i] == e;
  }

  /** Get does not deduplicate: a feature stored under two entries that both meet the query
      rectangle, and that contains c, is returned at least twice. */
  lemma GetRepeatsFeature(fence: Fence, c: Coordinate, meters: real, lonDelta: real, i: nat, j: nat)
    requires lonDelta >= 0.0
    requires CandidatesDefined(Candidates(fence.tree, c, meters, lonDelta), c)
    requires i < j < |fence.tree.entries|
    requires fence.tree.entries[i].feature == fence.tree.entries[j].feature
    requires Overlaps(GridOf(fence.tree.entries[i].box), QueryRect(c, meters, lonDelta))
    requires Overlaps(GridOf(fence.tree.entries[j].box), QueryRect(c, meters, lonDelta))
    requires GeometryDefined(fence.tree.entries[i].feature.geometry, c) && FeatureContains(fence.tree.entries[i].feature, c)
    ensures multiset(Get(fence, c, meters, lonDelta))[fence.tree.entries[i].feature] >= 2
  {
    var es, q := fence.tree.entries, QueryRect(c, meters, lonDelta);
    var f := es[i].feature;
    SearchSplit(es, q, i, j);
    var x, y := SearchIntersect(es[..j], q), SearchIntersect(es[j..], q);
    MatchesAppend(x, y, c);
    MatchesKeeps(x, c, es[i]);
    MatchesKeeps(y, c, y[0]);
    assert Get(fence, c, meters, lonDelta) == Matches(x + y, c);
    Seqs.TwiceInAppend(Matches(x, c), Matches(y, c), f);
  }

  /** A candidate whose feature contains c contributes that feature. */
  lemma MatchesKeeps(nodes: seq<Entry>, c: Coordinate, e: Entry)
    requires CandidatesDefined(nodes, c) && e in nodes && FeatureContains(e.feature, c)
    ensures e.feature in Matches(nodes, c)
  {
    var k :| 0 <= k < |nodes| && nodes[k] == e;
  }

  /** A fence with no entries finds nothing. */
  lemma EmptyFenceFindsNothing(c: Coordinate, meters: real, lonDelta: real)
    requires lonDelta >= 0.0
    ensures CandidatesDefined(Candidates(EmptyFence.tree, c, meters, lonDelta), c)
    ensures Get(EmptyFence, c, meters, lonDelta) == []
  {
    EmptyTreeHasNoCandidates(c, meters, lonDelta);
  }
}

=== FILE: geojson.dfy ===
/** The GeoJSON adapter (geojson.go): decoded GeoJSON features become fence features, one
    polygon per ring or line, with ring orientation normalised. */
module GeoJson {
  import opened Results
  import Geometry
  import opened Features
  import Seqs
  import Fences

  /** A GeoJSON position, longitude first: x is the longitude, y the latitude. */
  datatype Position = Position(x: real, y: real)

  /** The geometry kinds the adapter distinguishes; any other kind carries only its type name. */
  datatype GeoGeometry =
    | GeoPoint(point: Position)
    | GeoLineString(line: seq<Position>)
    | GeoMultiPoint(points: seq<Position>)
    | GeoMultiLineString(lines: seq<seq<Position>>)
    | GeoPolygon(rings: seq<seq<Position>>)
    | GeoMultiPolygon(polygons: seq<seq<seq<Position>>>)
    | GeoOther(typeName: string)

  /** The type string of a geometry, as written in the document. */
  function TypeName(g: GeoGeometry): string
  {
    match g
    case GeoPoint(_) => "Point"
    case GeoLineString(_) => "LineString"
    case GeoMultiPoint(_) => "MultiPoint"
    case GeoMultiLineString(_) => "MultiLineString"
    case GeoPolygon(_) => "Polygon"
    case GeoMultiPolygon(_) => "MultiPolygon"
    case GeoOther(t) => t
  }

  /** A decoded GeoJSON feature. The geometry is absent when the document has none, and the
      getter may report an error. */
  datatype GeoFeature = GeoFeature(id: Value, geometry: Option<GeoGeometry>, geometryError: bool,
                                   properties: Properties, crs: Option<Value>)

  datatype AdapterError = InvalidFeature | InvalidCoordinateType(typeName: string)

  /** The ring of a line: position i becomes (lat: y, lon: x). */
  function AdaptRing(line: seq<Position>): (r: Geometry.Ring)
    ensures |r| == |line|
    ensures forall i :: 0 <= i < |line| ==> r[i] == Geometry.Coordinate(line[i].y, line[i].x)
  {
    if |line| == 0 then [] else [Geometry.Coordinate(line[0].y, line[0].x)] + AdaptRing(line[1..])
  }

  /** coordinatesAdapter: a polygon whose exterior ring is the line; no holes. */
  function CoordinatesAdapter(line: seq<Position>): (p: Geometry.Polygon)
    ensures |p.exterior| == |line| && p.holes == []
    ensures forall i :: 0 <= i < |line| ==> p.exterior[i].lat == line[i].y && p.exterior[i].lon == line[i].x
  {
    Geometry.Polygon(AdaptRing(line), [])
  }

  /** Positions of a ring, longitude first: the inverse of AdaptRing. */
  function RingPositions(r: Geometry.Ring): (line: seq<Position>)
    ensures |line| == |r|
    ensures forall i :: 0 <= i < |r| ==> line[i] == Position(r[i].lon, r[i].lat)
  {
    if |r| == 0 then [] else [Position(r[0].lon, r[0].lat)] + RingPositions(r[1..])
  }

  lemma AdaptRingRoundTrip(line: seq<Position>, r: Geometry.Ring)
    ensures RingPositions(AdaptRing(line)) == line
    ensures AdaptRing(RingPositions(r)) == r
  {
  }

  /** An exterior ring is reversed unless it is already clockwise. */
  function OrientExterior(r: Geometry.Ring): (o: Geometry.Ring)
    requires |r| >= 1
    ensures |o| == |r| && Geometry.IsClockwise(o)
    ensures o == r || o == Geometry.Reverse(r)
    ensures Geometry.IsClockwise(r) ==> o == r
    ensures !Geometry.IsClockwise(r) ==> o == Geometry.Reverse(r)
  {
    Geometry.SignedSumReverse(r);
    if !Geometry.IsClockwise(r) then Geometry.Reverse(r) else r
  }

  /** A hole ring is reversed when it is clockwise, leaving a non-positive signed sum. */
  function OrientHole(r: Geometry.Ring): (o: Geometry.Ring)
    requires |r| >= 1
    ensures |o| == |r| && Geometry.SignedSum(o) <= 0.0
    ensures o == r || o == Geometry.Reverse(r)
    ensures Geometry.IsClockwise(r) ==> o == Geometry.Reverse(r)
    ensures !Geometry.IsClockwise(r) ==> o == r
  {
    Geometry.SignedSumReverse(r);
    if Geometry.IsClockwise(r) then Geometry.Reverse(r) else r
  }

  /** Orientation does not change which points a ring contains. */
  lemma OrientKeepsContainment(r: Geometry.Ring, q: Geometry.Coordinate)
    requires |r| >= 1
    ensures Geometry.RingContains(OrientExterior(r), q) <==> Geometry.RingContains(r, q)
    ensures Geometry.RingContains(OrientHole(r), q) <==> Geometry.RingContains(r, q)
  {
    Geometry.ReverseKeepsContainment(r, q);
  }

  /** Every ring of the lines can be oriented: isClockwise needs at least one position. */
  predicate RingsNonEmpty(rings: seq<seq<Position>>)
  {
    forall k :: 0 <= k < |rings| ==> |rings[k]| >= 1
  }

  /** The orientation step of the ring loop: as an exterior or as a hole. */
  function Orient(r: Geometry.Ring, exterior: bool): (o: Geometry.Ring)
    requires |r| >= 1
    ensures |o| == |r|
    ensures o == r || o == Geometry.Reverse(r)
    ensures exterior ==> Geometry.IsClockwise(o)
    ensures !exterior ==> Geometry.SignedSum(o) <= 0.0
    ensures o == (if exterior == Geometry.IsClockwise(r) then r else Geometry.Reverse(r))
  {
    if exterior then OrientExterior(r) else OrientHole(r)
  }

  /** The ring loop of a Polygon: the `exterior` flag holds for the first ring only, so ring 0
      is oriented as an exterior and every later ring as a hole; each becomes its own polygon,
      none is stored as a hole. */
  function AdaptRings(rings: seq<seq<Position>>): (ps: seq<Geometry.Polygon>)
    requires RingsNonEmpty(rings)
    ensures |ps| == |rings|
    ensures forall k :: 0 <= k < |rings| ==> ps[k].holes == [] && |ps[k].exterior| == |rings[k]|
    ensures forall k :: 0 <= k < |rings| ==>
              ps[k].exterior == AdaptRing(rings[k]) || ps[k].exterior == Geometry.Reverse(AdaptRing(rings[k]))
    ensures |rings| > 0 ==> Geometry.IsClockwise(ps[0].exterior)
    ensures forall k :: 1 <= k < |rings| ==> Geometry.SignedSum(ps[k].exterior) <= 0.0
  {
    seq(|rings|, k requires 0 <= k < |rings| => Geometry.Polygon(Orient(AdaptRing(rings[k]), k == 0), []))
  }

  /** Which rings AdaptRings reverses: the first ring is kept when it is clockwise and reversed
      otherwise; every later ring is reversed when it is clockwise and kept otherwise. */
  lemma AdaptRingsOrientation(rings: seq<seq<Position>>, k: nat)
    requires RingsNonEmpty(rings) && k < |rings|
    ensures var r := AdaptRing(rings[k]);
            AdaptRings(rings)[k].exterior
              == if (k == 0) == Geometry.IsClockwise(r) then r else Geometry.Reverse(r)
  {
  }

  predicate MultiRingsNonEmpty(polygons: seq<seq<seq<Position>>>)
  {
    forall j :: 0 <= j < |polygons| ==> RingsNonEmpty(polygons[j])
  }

  /** The total number of rings of a MultiPolygon. */
  function RingCount(polygons: seq<seq<seq<Position>>>): nat
  {
    Seqs.TotalLength(polygons)
  }

  /** The polygons of each MultiPolygon member, adapted as a Polygon of its own. */
  function Members(polygons: seq<seq<seq<Position>>>): (ms: seq<seq<Geometry.Polygon>>)
    requires MultiRingsNonEmpty(polygons)
    ensures |ms| == |polygons|
    ensures forall j :: 0 <= j < |polygons| ==> ms[j] == AdaptRings(polygons[j])
    ensures forall j :: 0 <= j < |polygons| ==> |ms[j]| == |polygons[j]|
  {
    seq(|polygons|, j requires 0 <= j < |polygons| => AdaptRings(polygons[j]))
  }

  /** The MultiPolygon loop: the rings of each member in turn, the first of each as exterior. */
  function AdaptMulti(polygons: seq<seq<seq<Position>>>): (ps: seq<Geometry.Polygon>)
    requires MultiRingsNonEmpty(polygons)
    ensures |ps| == RingCount(polygons)
    ensures forall k :: 0 <= k < |ps| ==> ps[k].holes == []
  {
    var ms := Members(polygons);
    Seqs.ConcatLength(ms);
    Seqs.SameLengths(ms, polygons);
    Seqs.ConcatMembers(ms);
    var ps := Seqs.Concat(ms);
    assert forall k :: 0 <= k < |ps| ==> ps[k] in ps;
    ps
  }

  /** Every member of a MultiPolygon is adapted as a Polygon of its own: its rings occupy the
      slice after the rings of the earlier members. */
  lemma MultiMemberAdapted(polygons: seq<seq<seq<Position>>>, j: nat)
    requires MultiRingsNonEmpty(polygons) && j < |polygons|
    ensures var off := RingCount(polygons[..j]);
            off + |polygons[j]| <= |AdaptMulti(polygons)|
            && AdaptMulti(polygons)[off..off + |polygons[j]|] == AdaptRings(polygons[j])
  {
    var ms := Members(polygons);
    assert AdaptMulti(polygons) == Seqs.Concat(ms);
    Seqs.ConcatBlockOf(ms, polygons, j);
  }

  /** The first ring of every MultiPolygon member comes out clockwise. */
  lemma MultiMemberExteriorClockwise(polygons: seq<seq<seq<Position>>>, j: nat)
    requires MultiRingsNonEmpty(polygons) && j < |polygons| && |polygons[j]| > 0
    ensures var off := RingCount(polygons[..j]);
            off < |AdaptMulti(polygons)| && |AdaptMulti(polygons)[off].exterior| >= 1
            && Geometry.IsClockwise(AdaptMulti(polygons)[off].exterior)
  {
    MultiMemberAdapted(polygons, j);
    var off := RingCount(polygons[..j]);
    SliceHead(AdaptMulti(polygons), AdaptRings(polygons[j]), off, |polygons[j]|);
  }

  lemma SliceHead<T>(s: seq<T>, part: seq<T>, off: nat, n: nat)
    requires 0 < n && off + n <= |s| && s[off..off + n] == part
    ensures off < |s| && s[off] == part[0]
  {
    assert s[off] == s[off..off + n][0];
  }

  /** featureAdapter can run without panicking: every ring of a (Multi)Polygon is non-empty. */
  predicate AdapterDefined(g: GeoGeometry)
  {
    match g
    case GeoPolygon(rings) => RingsNonEmpty(rings)
    case GeoMultiPolygon(polygons) => MultiRingsNonEmpty(polygons)
    case _ => true
  }

  /** The polygons of a geometry, in document order. */
  function AdaptGeometry(g: GeoGeometry): (ps: seq<Geometry.Polygon>)
    requires AdapterDefined(g) && !g.GeoOther?
    ensures g.GeoPoint? ==> ps == [CoordinatesAdapter([g.point])]
    ensures g.GeoLineString? ==> ps == [CoordinatesAdapter(g.line)]
    ensures g.GeoMultiPoint? ==> ps == [CoordinatesAdapter(g.points)]
    ensures g.GeoMultiLineString? ==> |ps| == |g.lines|
    ensures g.GeoMultiLineString? ==> forall k :: 0 <= k < |g.lines| ==> ps[k] == CoordinatesAdapter(g.lines[k])
    ensures g.GeoPolygon? ==> |ps| == |g.rings|
    ensures g.GeoMultiPolygon? ==> |ps| == RingCount(g.polygons)
  {
    match g
    case GeoPoint(pt) => [CoordinatesAdapter([pt])]
    case GeoLineString(line) => [CoordinatesAdapter(line)]
    case GeoMultiPoint(points) => [CoordinatesAdapter(points)]
    case GeoMultiLineString(lines) => seq(|lines|, k requires 0 <= k < |lines| => CoordinatesAdapter(lines[k]))
    case GeoPolygon(rings) => AdaptRings(rings)
    case GeoMultiPolygon(polygons) => AdaptMulti(polygons)
  }

  /** featureAdapter. */
  function FeatureAdapter(gj: GeoFeature): (r: Result<Feature, AdapterError>)
    requires gj.geometry.Some? && !gj.geometryError ==> AdapterDefined(gj.geometry.value)
    ensures gj.geometry.None? || gj.geometryError ==> r == Failure(InvalidFeature)
    ensures gj.geometry.Some? && !gj.geometryError && gj.geometry.value.GeoOther? ==>
              r == Failure(InvalidCoordinateType(gj.geometry.value.typeName))
    ensures r.Success? <==> gj.geometry.Some? && !gj.geometryError && !gj.geometry.value.GeoOther?
    ensures r.Success? ==> r.value.kind == TypeName(gj.geometry.value)
    ensures r.Success? ==> r.value.geometry == AdaptGeometry(gj.geometry.value)
    ensures r.Success? ==> (r.value.properties.Some? <==> gj.properties.Some?)
    ensures r.Success? && gj.properties.Some? ==>
              r.value.properties.value == gj.properties.value["id" := gj.id] && r.value.crs == gj.crs
    ensures r.Success? && gj.properties.None? ==> r.value.crs == None
  {
    if gj.geometry.None? || gj.geometryError then Failure(InvalidFeature)
    else
      var g := gj.geometry.value;
      var base := NewFeature(TypeName(g), []);
      var props := if gj.properties.Some? then Some(gj.properties.value["id" := gj.id]) else None;
      var crs := if gj.properties.Some? then gj.crs else base.crs;
      if g.GeoOther? then Failure(InvalidCoordinateType(g.typeName))
      else Success(base.(properties := props, crs := crs, kind := TypeName(g), geometry := AdaptGeometry(g)))
  }

  /** A Polygon document yields one polygon per ring: the exterior clockwise first, then every
      hole as a polygon of its own with a non-positive signed sum. */
  lemma PolygonRingsBecomePolygons(gj: GeoFeature)
    requires gj.geometry.Some? && !gj.geometryError && gj.geometry.value.GeoPolygon?
    requires RingsNonEmpty(gj.geometry.value.rings)
    ensures FeatureAdapter(gj).Success?
    ensures var f := FeatureAdapter(gj).value; var rings := gj.geometry.value.rings;
            |f.geometry| == |rings|
            && (forall k :: 0 <= k < |rings| ==> f.geometry[k].holes == [])
            && (|rings| > 0 ==> |f.geometry[0].exterior| >= 1 && Geometry.IsClockwise(f.geometry[0].exterior))
            && (forall k :: 1 <= k < |rings| ==> Geometry.SignedSum(f.geometry[k].exterior) <= 0.0)
            && WellFormed(f)
  {
  }

  /** A MultiPoint of two or more positions becomes one polygon that Fence.Add indexes. */
  lemma MultiPointIsIndexed(gj: GeoFeature)
    requires gj.geometry.Some? && !gj.geometryError && gj.geometry.value.GeoMultiPoint?
    requires |gj.geometry.value.points| >= 2
    ensures FeatureAdapter(gj).Success?
    ensures var gs := FeatureAdapter(gj).value.geometry;
            |gs| == 1 && |gs[0].exterior| == |gj.geometry.value.points| && Fences.Indexable(gs) == gs
  {
  }

  /** Because every hole becomes a polygon of its own, the adapted Polygon feature contains a
      point exactly when some ring of the document, exterior or hole, contains it: a point
      inside a hole is reported as inside the feature. */
  lemma PolygonFeatureContainsAnyRing(gj: GeoFeature, c: Geometry.Coordinate)
    requires gj.geometry.Some? && !gj.geometryError && gj.geometry.value.GeoPolygon?
    requires RingsNonEmpty(gj.geometry.value.rings)
    ensures FeatureAdapter(gj).Success? && GeometryDefined(FeatureAdapter(gj).value.geometry, c)
    ensures var rings := gj.geometry.value.rings;
            (FeatureContains(FeatureAdapter(gj).value, c)
             <==> exists k :: 0 <= k < |rings| && |rings[k]| >= 1 && Geometry.RingContains(AdaptRing(rings[k]), c))
  {
    var rings := gj.geometry.value.rings;
    var ps := FeatureAdapter(gj).value.geometry;
    assert ps == AdaptRings(rings);
    forall i | 0 <= i < |ps|
      ensures WellFormedPolygon(ps[i])
      ensures Geometry.ContainsDefined(ps[i], c)
      ensures Geometry.PolygonContains(ps[i], c) <==> Geometry.RingContains(AdaptRing(rings[i]), c)
    {
      Geometry.ReverseKeepsContainment(AdaptRing(rings[i]), c);
    }
    WellFormedDefined(ps, c);
  }

  /** The case of a hole: a point inside any ring after the first is contained by the feature. */
  lemma HoleRingPointIsContained(gj: GeoFeature, k: nat, c: Geometry.Coordinate)
    requires gj.geometry.Some? && !gj.geometryError && gj.geometry.value.GeoPolygon?
    requires RingsNonEmpty(gj.geometry.value.rings)
    requires 1 <= k < |gj.geometry.value.rings|
    requires Geometry.RingContains(AdaptRing(gj.geometry.value.rings[k]), c)
    ensures FeatureAdapter(gj).Success? && GeometryDefined(FeatureAdapter(gj).value.geometry, c)
    ensures FeatureContains(FeatureAdapter(gj).value, c)
  {
    PolygonFeatureContainsAnyRing(gj, c);
  }
}

=== FILE: geometry.dfy ===
/** The geometry engine (polygon.go, coordinate.go): rings, polygons, bounding boxes,
    orientation and the two point-in-ring tests, over exact reals in place of float64. */
module Geometry {
  import opened Results

  /** A point as (latitude, longitude) in degrees. */
  datatype Coordinate = Coordinate(lat: real, lon: real)

  /** The coordinate slice of a PolyRing. The ring is closed only when its last point
      repeats its first: no operation here adds the closing edge on its own, except `Inside`. */
  type Ring = seq<Coordinate>

  const Origin := Coordinate(0.0, 0.0)

  // ----------------------------------------------------------------------------------------
  // reverse

  /** The ring read backwards. */
  function Reverse(r: Ring): (rev: Ring)
    ensures |rev| == |r|
    ensures forall i :: 0 <= i < |r| ==> rev[i] == r[|r| - 1 - i]
  {
    if |r| == 0 then [] else [r[|r| - 1]] + Reverse(r[..|r| - 1])
  }

  /** The in-place swap loop of PolyRing.reverse: indices i and j walk towards each other. */
  method ReverseInPlace(r: Ring) returns (rev: Ring)
    ensures |rev| == |r|
    ensures forall k :: 0 <= k < |r| ==> rev[k] == r[|r| - 1 - k]
  {
    rev := r;
    var i, j := 0, |r| - 1;
    while i < j
      invariant 0 <= i <= j + 1 <= |r|
      invariant i + j == |r| - 1
      invariant |rev| == |r|
      invariant forall k :: 0 <= k < |r| && (k < i || j < k) ==> rev[k] == r[|r| - 1 - k]
      invariant forall k :: i <= k <= j ==> rev[k] == r[k]
    {
      var lo, hi := rev[i], rev[j];
      rev := rev[i := hi][j := lo];
      i, j := i + 1, j - 1;
    }
  }

  /** Reversing twice restores the ring. */
  lemma ReverseReverse(r: Ring)
    ensures Reverse(Reverse(r)) == r
  {
    var rr := Reverse(Reverse(r));
    assert forall i :: 0 <= i < |r| ==> rr[i] == r[i];
  }

  /** The test ring of TestReversePolygon: points (i, i) for i in 0..5, reversed, have latitudes 5..0. */
  lemma ReverseTestRing()
    ensures var r := [Coordinate(0.0, 0.0), Coordinate(1.0, 1.0), Coordinate(2.0, 2.0),
                      Coordinate(3.0, 3.0), Coordinate(4.0, 4.0), Coordinate(5.0, 5.0)];
            forall i :: 0 <= i < 6 ==> Reverse(r)[i].lat == (5 - i) as real
  {
  }

  // ----------------------------------------------------------------------------------------
  // isClockwise

  /** The shoelace-style term of one edge a -> b. */
  function EdgeTerm(a: Coordinate, b: Coordinate): real
  {
    (b.lon - a.lon) * (b.lat + a.lat)
  }

  /** The sum isClockwise accumulates over the consecutive edges r[i] -> r[i+1]. */
  function SignedSum(r: Ring): real
    decreases |r|
  {
    if |r| < 2 then 0.0 else EdgeTerm(r[0], r[1]) + SignedSum(r[1..])
  }

  /** PolyRing.isClockwise. The source slices `[:len-1]`, which panics on an empty ring. */
  predicate IsClockwise(r: Ring)
    requires |r| >= 1
  {
    SignedSum(r) >= 0.0
  }

  /** The sum split at its last edge instead of its first. */
  lemma {:induction false} SignedSumSnoc(r: Ring)
    requires |r| >= 2
    ensures SignedSum(r) == SignedSum(r[..|r| - 1]) + EdgeTerm(r[|r| - 2], r[|r| - 1])
    decreases |r|
  {
    if |r| > 2 {
      SignedSumSnoc(r[1..]);
      assert r[1..][..|r| - 2] == r[..|r| - 1][1..];
    }
  }

  /** Reversing a ring negates its signed sum. */
  lemma {:induction false} SignedSumReverse(r: Ring)
    ensures SignedSum(Reverse(r)) == -SignedSum(r)
    decreases |r|
  {
    if |r| >= 2 {
      var n := |r|;
      var init := r[..n - 1];
      var rev := Reverse(r);
      SignedSumReverse(init);
      assert rev[1..] == Reverse(init);
      assert rev[0] == r[n - 1] && rev[1] == r[n - 2];
      EdgeTermAntisymmetric(r[n - 2], r[n - 1]);
      assert SignedSum(rev) == EdgeTerm(r[n - 1], r[n - 2]) + SignedSum(Reverse(init));
      SignedSumSnoc(r);
    }
  }

  lemma EdgeTermAntisymmetric(a: Coordinate, b: Coordinate)
    ensures EdgeTerm(b, a) == -EdgeTerm(a, b)
  {
  }

  /** Reversal flips isClockwise whenever the signed sum is non-zero. */
  lemma ReverseFlipsClockwise(r: Ring)
    requires |r| >= 1
    requires SignedSum(r) != 0.0
    ensures IsClockwise(Reverse(r)) == !IsClockwise(r)
  {
    SignedSumReverse(r);
  }

  /** A ring whose signed sum is zero satisfies isClockwise, and so does its reversal. */
  lemma ZeroSumClockwiseBothWays(r: Ring)
    requires |r| >= 1
    requires SignedSum(r) == 0.0
    ensures IsClockwise(r) && IsClockwise(Reverse(r))
  {
    SignedSumReverse(r);
  }

  /** The closed ring of TestClockwise is not clockwise, and its reversal is. */
  lemma ClockwiseTestRing()
    ensures var r := [Coordinate(39.7435437641, -105.003612041), Coordinate(39.7427848013, -105.003011227),
                      Coordinate(39.7431642838, -105.002217293), Coordinate(39.7439067434, -105.002839565),
                      Coordinate(39.7435437641, -105.003612041)];
            !IsClockwise(r) && IsClockwise(Reverse(r))
  {
    var r := [Coordinate(39.7435437641, -105.003612041), Coordinate(39.7427848013, -105.003011227),
              Coordinate(39.7431642838, -105.002217293), Coordinate(39.7439067434, -105.002839565),
              Coordinate(39.7435437641, -105.003612041)];
    assert SignedSum(r[3..]) == EdgeTerm(r[3], r[4]);
    assert SignedSum(r[2..]) == EdgeTerm(r[2], r[3]) + SignedSum(r[3..]);
    assert SignedSum(r[1..]) == EdgeTerm(r[1], r[2]) + SignedSum(r[2..]);
    assert SignedSum(r) < 0.0;
    SignedSumReverse(r);
  }

  // ----------------------------------------------------------------------------------------
  // computeWindingNumber and isLeft

  /** isLeft: positive when q lies left of the line through h and t, negative when right. */
  function IsLeft(h: Coordinate, t: Coordinate, q: Coordinate): real
  {
    (t.lon - h.lon) * (q.lat - h.lat) - (q.lon - h.lon) * (t.lat - h.lat)
  }

  /** What one edge a -> b adds to the winding number around q. */
  function Crossing(a: Coordinate, b: Coordinate, q: Coordinate): (d: int)
    ensures -1 <= d <= 1
    ensures d == 1 <==> a.lat <= q.lat < b.lat && IsLeft(a, b, q) > 0.0
    ensures d == -1 <==> b.lat <= q.lat < a.lat && IsLeft(a, b, q) < 0.0
  {
    if a.lat <= q.lat then
      if b.lat > q.lat && IsLeft(a, b, q) > 0.0 then 1 else 0
    else
      if b.lat <= q.lat && IsLeft(a, b, q) < 0.0 then -1 else 0
  }

  /** The winding number of computeWindingNumber: the edges r[i] -> r[i+1] for i < |r| - 1 only.
      The source slices `[:len-1]`, which panics on an empty ring. */
  function WindingNumber(r: Ring, q: Coordinate): (wn: int)
    requires |r| >= 1
    ensures -(|r| - 1) <= wn <= |r| - 1
    decreases |r|
  {
    if |r| == 1 then 0 else Crossing(r[0], r[1], q) + WindingNumber(r[1..], q)
  }

  /** The winding number split at its last edge: appending a point adds exactly one edge. */
  lemma {:induction false} WindingNumberSnoc(r: Ring, q: Coordinate)
    requires |r| >= 2
    ensures WindingNumber(r, q) == WindingNumber(r[..|r| - 1], q) + Crossing(r[|r| - 2], r[|r| - 1], q)
    decreases |r|
  {
    if |r| > 2 {
      WindingNumberSnoc(r[1..], q);
      assert r[1..][..|r| - 2] == r[..|r| - 1][1..];
    }
  }

  /** The loop of computeWindingNumber as written. */
  method ComputeWindingNumber(r: Ring, q: Coordinate) returns (wn: int)
    requires |r| >= 1
    ensures wn == WindingNumber(r, q)
  {
    wn := 0;
    var i := 0;
    while i < |r| - 1
      invariant 0 <= i <= |r| - 1
      invariant wn == WindingNumber(r[..i + 1], q)
    {
      if r[i].lat <= q.lat {
        if r[i + 1].lat > q.lat {
          if IsLeft(r[i], r[i + 1], q) > 0.0 {
            wn := wn + 1;
          }
        }
      } else {
        if r[i + 1].lat <= q.lat {
          if IsLeft(r[i], r[i + 1], q) < 0.0 {
            wn := wn - 1;
          }
        }
      }
      WindingNumberSnoc(r[..i + 2], q);
      assert r[..i + 2][..i + 1] == r[..i + 1];
      i := i + 1;
    }
    assert r[..|r|] == r;
  }

  /** Traversing an edge backwards negates its contribution: the upward and downward tests
      share their latitude band, and isLeft changes sign. */
  lemma CrossingAntisymmetric(a: Coordinate, b: Coordinate, q: Coordinate)
    ensures Crossing(b, a, q) == -Crossing(a, b, q)
  {
    assert IsLeft(b, a, q) == -IsLeft(a, b, q);
  }

  /** Reversing a ring negates its winding number. */
  lemma {:induction false} WindingNumberReverse(r: Ring, q: Coordinate)
    requires |r| >= 1
    ensures WindingNumber(Reverse(r), q) == -WindingNumber(r, q)
    decreases |r|
  {
    if |r| >= 2 {
      var n := |r|;
      var init := r[..n - 1];
      var rev := Reverse(r);
      WindingNumberReverse(init, q);
      assert rev[1..] == Reverse(init);
      CrossingAntisymmetric(r[n - 2], r[n - 1], q);
      WindingNumberSnoc(r, q);
    }
  }

  /** PolyRing.Contains: a non-zero winding number. */
  predicate RingContains(r: Ring, q: Coordinate)
    requires |r| >= 1
  {
    WindingNumber(r, q) != 0
  }

  /** Orientation does not matter to containment: a ring and its reversal contain the same points. */
  lemma ReverseKeepsContainment(r: Ring, q: Coordinate)
    requires |r| >= 1
    ensures RingContains(Reverse(r), q) == RingContains(r, q)
  {
    WindingNumberReverse(r, q);
  }

  /** A one-point ring (the polygon of a point feature) contains nothing. */
  lemma SinglePointContainsNothing(c: Coordinate, q: Coordinate)
    ensures !RingContains([c], q)
  {
  }

  // ----------------------------------------------------------------------------------------
  // inside and rayIntersectsSegment (PNPoly)

  /** rayIntersectsSegment. The `&&` short-circuits, so the division only happens on an edge
      whose endpoints straddle the ray's latitude, which therefore differ. */
  function RayCrosses(p: Coordinate, a: Coordinate, b: Coordinate): (hit: bool)
    ensures hit ==> a.lat != b.lat
    ensures hit ==> (a.lat <= p.lat < b.lat || b.lat <= p.lat < a.lat)
  {
    (a.lat > p.lat) != (b.lat > p.lat)
      && p.lon < (b.lon - a.lon) * (p.lat - a.lat) / (b.lat - a.lat) + a.lon
  }

  function Indicator(b: bool): nat { if b then 1 else 0 }

  /** How many of the consecutive edges r[i] -> r[i+1] the ray from p crosses. */
  function PathCrossings(r: Ring, p: Coordinate): (n: nat)
    ensures |r| >= 1 ==> n <= |r| - 1
    decreases |r|
  {
    if |r| < 2 then 0 else Indicator(RayCrosses(p, r[0], r[1])) + PathCrossings(r[1..], p)
  }

  lemma {:induction false} PathCrossingsSnoc(r: Ring, p: Coordinate)
    requires |r| >= 2
    ensures PathCrossings(r, p) == PathCrossings(r[..|r| - 1], p) + Indicator(RayCrosses(p, r[|r| - 2], r[|r| - 1]))
    decreases |r|
  {
    if |r| > 2 {
      PathCrossingsSnoc(r[1..], p);
      assert r[1..][..|r| - 2] == r[..|r| - 1][1..];
    }
  }

  /** Extending a prefix of the ring by one point adds the edge into that point. */
  lemma PathCrossingsPrefix(r: Ring, p: Coordinate, i: nat)
    requires 1 <= i < |r|
    ensures PathCrossings(r[..i + 1], p) == PathCrossings(r[..i], p) + Indicator(RayCrosses(p, r[i - 1], r[i]))
  {
    var s := r[..i + 1];
    PathCrossingsSnoc(s, p);
    assert s[..i] == r[..i];
  }

  /** The crossing number of the ring closed by its edge from the last point back to the first. */
  function CrossingNumber(r: Ring, p: Coordinate): (n: nat)
    requires |r| >= 1
    ensures n <= |r|
  {
    Indicator(RayCrosses(p, r[|r| - 1], r[0])) + PathCrossings(r, p)
  }

  predicate Odd(n: nat) { n % 2 == 1 }

  lemma OddSucc(n: nat)
    ensures Odd(n + 1) == !Odd(n)
  {
  }

  /** PolyRing.inside: the even-odd rule, false for fewer than three points. */
  method Inside(r: Ring, pt: Coordinate) returns (inside: bool)
    ensures |r| < 3 ==> !inside
    ensures |r| >= 3 ==> inside == Odd(CrossingNumber(r, pt))
  {
    if |r| < 3 {
      return false;
    }
    var closing := RayCrosses(pt, r[|r| - 1], r[0]);
    inside := closing;
    var i := 1;
    while i < |r|
      invariant 1 <= i <= |r|
      invariant inside == Odd(Indicator(closing) + PathCrossings(r[..i], pt))
    {
      var hit := RayCrosses(pt, r[i - 1], r[i]);
      if hit {
        inside := !inside;
      }
      PathCrossingsPrefix(r, pt, i);
      OddSucc(Indicator(closing) + PathCrossings(r[..i], pt));
      i := i + 1;
    }
    assert r[..|r|] == r;
  }

  // ----------------------------------------------------------------------------------------
  // Polygon

  /** An exterior ring and its holes (the `Coordinates` and `Holes` fields). */
  datatype Polygon = Polygon(exterior: Ring, holes: seq<Ring>)

  /** The holes the loop of Polygon.Contains reads are non-empty: it stops at the first hole
      around q, and an empty hole would make computeWindingNumber panic. */
  predicate HolesDefined(holes: seq<Ring>, q: Coordinate)
    decreases |holes|
  {
    |holes| == 0 || (|holes[0]| >= 1 && (!RingContains(holes[0], q) ==> HolesDefined(holes[1..], q)))
  }

  /** Polygon.Contains runs without panicking: the exterior is non-empty, and the holes are
      only read when the exterior contains q. */
  predicate ContainsDefined(p: Polygon, q: Coordinate)
  {
    |p.exterior| >= 1 && (RingContains(p.exterior, q) ==> HolesDefined(p.holes, q))
  }

  /** The hole loop with its early break: is some hole around q? */
  function HoleAround(holes: seq<Ring>, q: Coordinate): (found: bool)
    requires HolesDefined(holes, q)
    ensures found <==> exists k :: 0 <= k < |holes| && |holes[k]| >= 1 && RingContains(holes[k], q)
    ensures !found ==> forall k :: 0 <= k < |holes| ==> |holes[k]| >= 1 && !RingContains(holes[k], q)
    decreases |holes|
  {
    if |holes| == 0 then false
    else if RingContains(holes[0], q) then true
    else
      var rest := HoleAround(holes[1..], q);
      assert forall k :: 1 <= k < |holes| ==> holes[k] == holes[1..][k - 1];
      rest
  }

  /** Polygon.Contains: inside the exterior ring and around no hole. */
  function PolygonContains(p: Polygon, q: Coordinate): (ok: bool)
    requires ContainsDefined(p, q)
    ensures ok ==> RingContains(p.exterior, q)
    ensures ok <==> RingContains(p.exterior, q)
                    && forall k :: 0 <= k < |p.holes| ==> |p.holes[k]| >= 1 && !RingContains(p.holes[k], q)
    ensures |p.holes| == 0 ==> (ok <==> RingContains(p.exterior, q))
  {
    RingContains(p.exterior, q) && !HoleAround(p.holes, q)
  }

  /** A point inside the exterior and inside some hole is not contained. */
  lemma HoleExcludes(p: Polygon, q: Coordinate, k: nat)
    requires ContainsDefined(p, q)
    requires k < |p.holes| && |p.holes[k]| >= 1 && RingContains(p.holes[k], q)
    ensures !PolygonContains(p, q)
  {
  }

  /** TestContains: the unclosed diamond (0,5),(5,0),(5,10),(10,5) contains (5,5). Only the
      edge (5,10) -> (10,5) crosses upward, with (5,5) on its left. */
  lemma DiamondContainsCenter()
    ensures var p := Polygon([Coordinate(0.0, 5.0), Coordinate(5.0, 0.0), Coordinate(5.0, 10.0), Coordinate(10.0, 5.0)], []);
            ContainsDefined(p, Coordinate(5.0, 5.0)) && PolygonContains(p, Coordinate(5.0, 5.0))
  {
    var r := [Coordinate(0.0, 5.0), Coordinate(5.0, 0.0), Coordinate(5.0, 10.0), Coordinate(10.0, 5.0)];
    var q := Coordinate(5.0, 5.0);
    assert WindingNumber(r[2..], q) == 1;
    assert WindingNumber(r[1..], q) == 1;
    assert WindingNumber(r, q) == 1;
  }

  /** The closed square (0,0),(0,10),(10,10),(10,0),(0,0) contains (5,5) and not (50,50): only
      the edge (0,10) -> (10,10) crosses upward past (5,5), and no edge reaches latitude 50. */
  lemma ClosedSquareContainment()
    ensures var p := Polygon([Coordinate(0.0, 0.0), Coordinate(0.0, 10.0), Coordinate(10.0, 10.0),
                              Coordinate(10.0, 0.0), Coordinate(0.0, 0.0)], []);
            ContainsDefined(p, Coordinate(5.0, 5.0)) && PolygonContains(p, Coordinate(5.0, 5.0))
            && ContainsDefined(p, Coordinate(50.0, 50.0)) && !PolygonContains(p, Coordinate(50.0, 50.0))
  {
    var r := [Coordinate(0.0, 0.0), Coordinate(0.0, 10.0), Coordinate(10.0, 10.0), Coordinate(10.0, 0.0), Coordinate(0.0, 0.0)];
    var q, far := Coordinate(5.0, 5.0), Coordinate(50.0, 50.0);
    assert WindingNumber(r[3..], q) == 0 && WindingNumber(r[3..], far) == 0;
    assert WindingNumber(r[2..], q) == 0 && WindingNumber(r[2..], far) == 0;
    assert WindingNumber(r[1..], q) == 1 && WindingNumber(r[1..], far) == 0;
    assert WindingNumber(r, q) == 1 && WindingNumber(r, far) == 0;
  }

  // ----------------------------------------------------------------------------------------
  // Box, NewBox and computeBox

  /** An axis-aligned rectangle in (lat, lon) space. */
  datatype Box = Box(min: Coordinate, max: Coordinate)

  datatype BoxError = MinExceedsMax(min: Coordinate, max: Coordinate)

  predicate ValidBox(b: Box)
  {
    b.min.lat <= b.max.lat && b.min.lon <= b.max.lon
  }

  /** NewBox: fails exactly when a min corner coordinate exceeds the max one. */
  function NewBox(min: Coordinate, max: Coordinate): (r: Result<Box, BoxError>)
    ensures r.Failure? <==> min.lat > max.lat || min.lon > max.lon
    ensures r.Success? ==> r.value.min == min && r.value.max == max && ValidBox(r.value)
  {
    if min.lat > max.lat || min.lon > max.lon then Failure(MinExceedsMax(min, max))
    else Success(Box(min, max))
  }

  /** The box covers the coordinate on both axes. */
  predicate Covers(b: Box, c: Coordinate)
  {
    b.min.lat <= c.lat <= b.max.lat && b.min.lon <= c.lon <= b.max.lon
  }

  function Min(x: real, y: real): real { if x < y then x else y }

  function Max(x: real, y: real): real { if x > y then x else y }

  /** One step of the computeBox loop: widen the box to take in c. */
  function Extend(b: Box, c: Coordinate): Box
  {
    Box(Coordinate(Min(b.min.lat, c.lat), Min(b.min.lon, c.lon)),
        Coordinate(Max(b.max.lat, c.lat), Max(b.max.lon, c.lon)))
  }

  /** PolyRing.computeBox: seeded by the first coordinate and widened by the rest; an empty
      ring keeps the zero corners. The final NewBox never fails, so `check` never panics. */
  function RingBox(r: Ring): (b: Box)
    ensures |r| == 0 ==> b == Box(Origin, Origin)
    ensures ValidBox(b) && NewBox(b.min, b.max) == Success(b)
    ensures forall i :: 0 <= i < |r| ==> Covers(b, r[i])
    decreases |r|
  {
    if |r| == 0 then Box(Origin, Origin)
    else if |r| == 1 then Box(r[0], r[0])
    else
      var b := Extend(RingBox(r[..|r| - 1]), r[|r| - 1]);
      assert forall i :: 0 <= i < |r| - 1 ==> r[i] == r[..|r| - 1][i];
      b
  }

  /** Each side of the box is attained by some coordinate of a non-empty ring. */
  predicate Attained(b: Box, r: Ring)
  {
    && (exists i :: 0 <= i < |r| && r[i].lat == b.min.lat)
    && (exists i :: 0 <= i < |r| && r[i].lat == b.max.lat)
    && (exists i :: 0 <= i < |r| && r[i].lon == b.min.lon)
    && (exists i :: 0 <= i < |r| && r[i].lon == b.max.lon)
  }

  /** computeBox is the tightest box: every bound is some coordinate's value. */
  lemma {:induction false} RingBoxAttained(r: Ring)
    requires |r| >= 1
    ensures Attained(RingBox(r), r)
    decreases |r|
  {
    if |r| > 1 {
      var init := r[..|r| - 1];
      RingBoxAttained(init);
      assert forall i :: 0 <= i < |init| ==> init[i] == r[i];
      var last := |r| - 1;
      assert r[last] == r[|r| - 1];
    } else {
      assert r[0] == r[0];
    }
  }

  /** TestBox: the diamond's box is (0,0) .. (10,10). */
  lemma DiamondBox()
    ensures RingBox([Coordinate(0.0, 5.0), Coordinate(5.0, 0.0), Coordinate(5.0, 10.0), Coordinate(10.0, 5.0)])
            == Box(Coordinate(0.0, 0.0), Coordinate(10.0, 10.0))
  {
    var r := [Coordinate(0.0, 5.0), Coordinate(5.0, 0.0), Coordinate(5.0, 10.0), Coordinate(10.0, 5.0)];
    assert r[..1] == [r[0]];
    assert RingBox(r[..2]) == Box(Coordinate(0.0, 0.0), Coordinate(5.0, 5.0)) by {
      assert r[..2][..1] == r[..1];
    }
    assert RingBox(r[..3]) == Box(Coordinate(0.0, 0.0), Coordinate(5.0, 10.0)) by {
      assert r[..3][..2] == r[..2];
    }
    assert r[..4][..3] == r[..3];
    assert r[..4] == r;
  }

  /** The per-axis hull of two corners. */
  function PairHull(a: Coordinate, b: Coordinate): Box
  {
    Box(Coordinate(Min(a.lat, b.lat), Min(a.lon, b.lon)), Coordinate(Max(a.lat, b.lat), Max(a.lon, b.lon)))
  }

  /** The box of a two-point ring is the hull of the two points, whatever their order. */
  lemma PairBox(a: Coordinate, b: Coordinate)
    ensures RingBox([a, b]) == PairHull(a, b)
  {
    assert [a, b][..1] == [a];
  }

  /** Polygon.computeBox: the box of the exterior ring. */
  function PolygonBox(p: Polygon): (b: Box)
    ensures ValidBox(b)
    ensures forall i :: 0 <= i < |p.exterior| ==> Covers(b, p.exterior[i])
  {
    RingBox(p.exterior)
  }
}

=== FILE: index.dfy ===
/** The fence index (index.go): named fences, with NotFound errors for absent names. */
module FenceIndex {
  import opened Results
  import opened Geometry
  import opened Features
  import opened RTree
  import Fences

  /** UnsafeFenceIndex: a dictionary from names to fences. */
  datatype Index = Index(fences: map<string, Fences.Fence>)

  /** The error of Add and Search on a name the index does not hold. */
  datatype IndexError = NotFound(name: string)

  const EmptyIndex: Index := Index(map[])

  /** Set: binds the name, replacing any earlier fence under it. */
  function Set(idx: Index, name: string, fence: Fences.Fence): (r: Index)
    ensures Get(r, name) == Some(fence)
    ensures forall n :: n != name ==> Get(r, n) == Get(idx, n)
    ensures r.fences.Keys == idx.fences.Keys + {name}
  {
    Index(idx.fences[name := fence])
  }

  /** Get: the fence under the name, or nil. */
  function Get(idx: Index, name: string): (r: Option<Fences.Fence>)
    ensures r.Some? <==> name in idx.fences
    ensures r.Some? ==> r.value == idx.fences[name]
  {
    if name in idx.fences then Some(idx.fences[name]) else None
  }

  /** Setting a name twice keeps only the last fence. */
  lemma SetTwice(idx: Index, name: string, a: Fences.Fence, b: Fences.Fence)
    ensures Set(Set(idx, name, a), name, b) == Set(idx, name, b)
  {
    assert Set(Set(idx, name, a), name, b).fences == Set(idx, name, b).fences;
  }

  /** Add: an absent name is an error and leaves the index as it was; otherwise Fence.Add is
      applied to that fence only. */
  function Add(idx: Index, name: string, f: Feature): (r: (Index, Option<IndexError>))
    ensures name !in idx.fences ==> r.0 == idx && r.1 == Some(NotFound(name))
    ensures name in idx.fences ==> r.1 == None && Get(r.0, name) == Some(Fences.Add(idx.fences[name], f))
    ensures name in idx.fences ==> forall n :: n != name ==> Get(r.0, n) == Get(idx, n)
  {
    if name !in idx.fences then (idx, Some(NotFound(name)))
    else (Set(idx, name, Fences.Add(idx.fences[name], f)), None)
  }

  /** Search can run without panicking: Contains can be evaluated on every candidate around c. */
  predicate SearchDefined(idx: Index, name: string, c: Coordinate, meters: real, lonDelta: real)
  {
    lonDelta >= 0.0
      && (name in idx.fences ==> Fences.CandidatesDefined(Candidates(idx.fences[name].tree, c, meters, lonDelta), c))
  }

  /** Search: an absent name is an error with no matches; otherwise the fence's Get. */
  function Search(idx: Index, name: string, c: Coordinate, meters: real, lonDelta: real): (r: Result<seq<Feature>, IndexError>)
    requires SearchDefined(idx, name, c, meters, lonDelta)
    ensures r.Failure? <==> name !in idx.fences
    ensures r.Failure? ==> r.error == NotFound(name)
    ensures r.Success? ==> r.value == Fences.Get(idx.fences[name], c, meters, lonDelta)
    ensures r.Success? ==> forall m :: m in r.value ==> GeometryDefined(m.geometry, c) && FeatureContains(m, c)
  {
    if name !in idx.fences then Failure(NotFound(name))
    else Success(Fences.Get(idx.fences[name], c, meters, lonDelta))
  }

  /** A searched index that has just been given a fence finds exactly what that fence finds. */
  lemma SearchAfterSet(idx: Index, name: string, fence: Fences.Fence, c: Coordinate, meters: real, lonDelta: real)
    requires lonDelta >= 0.0
    requires Fences.CandidatesDefined(Candidates(fence.tree, c, meters, lonDelta), c)
    ensures SearchDefined(Set(idx, name, fence), name, c, meters, lonDelta)
    ensures Search(Set(idx, name, fence), name, c, meters, lonDelta) == Success(Fences.Get(fence, c, meters, lonDelta))
  {
  }

  /** Keys: every name of the index exactly once, in an order the map leaves unspecified. */
  method Keys(idx: Index) returns (keys: seq<string>)
    ensures forall i, j :: 0 <= i < j < |keys| ==> keys[i] != keys[j]
    ensures forall k :: k in keys <==> k in idx.fences
    ensures |keys| == |idx.fences|
  {
    keys := [];
    var remaining := idx.fences.Keys;
    while remaining != {}
      invariant forall i, j :: 0 <= i < j < |keys| ==> keys[i] != keys[j]
      invariant forall k :: k in keys ==> k in idx.fences && k !in remaining
      invariant forall k :: k in idx.fences ==> k in keys || k in remaining
      invariant remaining <= idx.fences.Keys
      invariant |keys| + |remaining| == |idx.fences.Keys|
      decreases |remaining|
    {
      var k :| k in remaining;
      keys := keys + [k];
      remaining := remaining - {k};
    }
    assert |idx.fences.Keys| == |idx.fences|;
  }

  /** MutexFenceIndex: the same index behind a read-write lock; every method delegates. */
  datatype MutexIndex = MutexIndex(inner: Index)

  function NewMutexIndex(): (m: MutexIndex)
    ensures m.inner.fences == map[]
  {
    MutexIndex(EmptyIndex)
  }

  function MutexSet(m: MutexIndex, name: string, fence: Fences.Fence): (r: MutexIndex)
    ensures r.inner == Set(m.inner, name, fence)
  {
    MutexIndex(Set(m.inner, name, fence))
  }

  function MutexGet(m: MutexIndex, name: string): (r: Option<Fences.Fence>)
    ensures r == Get(m.inner, name)
  {
    Get(m.inner, name)
  }

  function MutexAdd(m: MutexIndex, name: string, f: Feature): (r: (MutexIndex, Option<IndexError>))
    ensures r.0.inner == Add(m.inner, name, f).0 && r.1 == Add(m.inner, name, f).1
  {
    var (inner, err) := Add(m.inner, name, f);
    (MutexIndex(inner), err)
  }

  function MutexSearch(m: MutexIndex, name: string, c: Coordinate, meters: real, lonDelta: real): (r: Result<seq<Feature>, IndexError>)
    requires SearchDefined(m.inner, name, c, meters, lonDelta)
    ensures r == Search(m.inner, name, c, meters, lonDelta)
  {
    Search(m.inner, name, c, meters, lonDelta)
  }

  method MutexKeys(m: MutexIndex) returns (keys: seq<string>)
    ensures forall i, j :: 0 <= i < j < |keys| ==> keys[i] != keys[j]
    ensures forall k :: k in keys <==> k in m.inner.fences
    ensures |keys| == |m.inner.fences|
  {
    keys := Keys(m.inner);
  }
}

=== FILE: msg.dfy ===
/** The response envelope (msg.go): the queried point as a GeoJSON Point feature, longitude
    first, with the properties of every matching fence. */
module Msg {
  import Geometry
  import opened Features
  import GeoJson

  datatype PointGeometry = PointGeometry(kind: string, coordinates: seq<real>)

  datatype PointMessage = PointMessage(kind: string, properties: Properties, geometry: PointGeometry)

  datatype ResponseMessage = ResponseMessage(query: PointMessage, result: seq<Properties>)

  /** newPointMessage: a Point feature at c, coordinates [lon, lat], properties passed through. */
  function NewPointMessage(c: Geometry.Coordinate, props: Properties): (m: PointMessage)
    ensures m.kind == "Feature" && m.geometry.kind == "Point"
    ensures |m.geometry.coordinates| == 2
    ensures m.geometry.coordinates[0] == c.lon && m.geometry.coordinates[1] == c.lat
    ensures m.properties == props
  {
    PointMessage("Feature", props, PointGeometry("Point", [c.lon, c.lat]))
  }

  /** newResponseMessage: the query point and the fence properties, in the order given. */
  function NewResponseMessage(c: Geometry.Coordinate, props: Properties, fences: seq<Properties>): (r: ResponseMessage)
    ensures r.query == NewPointMessage(c, props)
    ensures |r.result| == |fences| && forall i :: 0 <= i < |fences| ==> r.result[i] == fences[i]
  {
    ResponseMessage(NewPointMessage(c, props), fences)
  }

  /** The message coordinates read back as a GeoJSON position. */
  function MessagePosition(g: PointGeometry): GeoJson.Position
    requires |g.coordinates| == 2
  {
    GeoJson.Position(g.coordinates[0], g.coordinates[1])
  }

  /** Feeding the message's coordinates back through coordinatesAdapter recovers the point. */
  lemma PointMessageRoundTrip(c: Geometry.Coordinate, props: Properties)
    ensures GeoJson.CoordinatesAdapter([MessagePosition(NewPointMessage(c, props).geometry)]).exterior == [c]
  {
  }

  /** The message of a point a GeoJSON Point document gave is that document's position. */
  lemma PositionRoundTrip(p: GeoJson.Position, props: Properties)
    ensures var c := GeoJson.CoordinatesAdapter([p]).exterior[0];
            MessagePosition(NewPointMessage(c, props).geometry) == p
  {
  }
}

=== FILE: results.dfy ===
/** Failure-carrying wrappers shared by every module: Go's `nil` results and `(value, err)` pairs. */
module Results {

  /** A value that may be absent, as a Go pointer or map value that may be `nil`. */
  datatype Option<+T> = None | Some(value: T)

  /** The two-result `(value, err)` convention of Go, with exactly one side present. */
  datatype Result<+T, +E> = Success(value: T) | Failure(error: E)
}

=== FILE: rtree.dfy ===
/** The R-tree wrapper (rtree.go): polygons are stored with their precomputed box and their
    feature, and searched by grid rectangles.

    The Hilbert R-tree itself belongs to an external library. Its behaviour is ASSUMED here:
    the tree is the sequence of inserted entries, Insert appends one entry, and SearchIntersect
    returns, in insertion order, exactly the entries whose grid rectangle overlaps the query's
    (closed rectangles, shared edges count). */
module RTree {
  import opened Geometry
  import opened Features
  import ToleranceBox

  /** Bits per axis of the Hilbert curve. */
  const Resolution: nat := 32

  /** The side of the grid, 1 << (Resolution - 1). */
  const Dim: nat := 0x8000_0000

  /** lonToUint32: the longitude scaled from [-180, 180] onto [0, Dim], truncated. */
  function LonToGrid(lon: real): int
  {
    ((Dim as real) * ((lon + 180.0) / 360.0)).Floor
  }

  /** latToUint32: the latitude scaled from [-90, 90] onto [0, Dim], truncated. */
  function LatToGrid(lat: real): int
  {
    ((Dim as real) * ((lat + 90.0) / 180.0)).Floor
  }

  lemma LonToGridRange(lon: real)
    requires -180.0 <= lon <= 180.0
    ensures 0 <= LonToGrid(lon) <= Dim
    ensures LonToGrid(-180.0) == 0 && LonToGrid(180.0) == Dim
  {
  }

  lemma LatToGridRange(lat: real)
    requires -90.0 <= lat <= 90.0
    ensures 0 <= LatToGrid(lat) <= Dim
    ensures LatToGrid(-90.0) == 0 && LatToGrid(90.0) == Dim
  {
  }

  lemma GridMonotone(a: real, b: real)
    requires a <= b
    ensures LonToGrid(a) <= LonToGrid(b)
    ensures LatToGrid(a) <= LatToGrid(b)
  {
    FloorMonotone(Dim as real * ((a + 180.0) / 360.0), Dim as real * ((b + 180.0) / 360.0));
    FloorMonotone(Dim as real * ((a + 90.0) / 180.0), Dim as real * ((b + 90.0) / 180.0));
  }

  lemma FloorMonotone(x: real, y: real)
    requires x <= y
    ensures x.Floor <= y.Floor
  {
  }

  /** An hrtree.Point: x from the longitude, y from the latitude. */
  datatype GridPoint = GridPoint(x: int, y: int)

  datatype GridRect = GridRect(lower: GridPoint, upper: GridPoint)

  /** customRect: a polygon, its box computed once at insertion, and the feature it belongs to. */
  datatype Entry = Entry(polygon: Polygon, box: Box, feature: Feature)

  function LowerLeft(b: Box): GridPoint
  {
    GridPoint(LonToGrid(b.min.lon), LatToGrid(b.min.lat))
  }

  function UpperRight(b: Box): GridPoint
  {
    GridPoint(LonToGrid(b.max.lon), LatToGrid(b.max.lat))
  }

  /** The grid rectangle a box presents to the tree. */
  function GridOf(b: Box): GridRect
  {
    GridRect(LowerLeft(b), UpperRight(b))
  }

  /** For a valid box, LowerLeft lies below and to the left of UpperRight. */
  lemma GridOfOrdered(b: Box)
    requires ValidBox(b)
    ensures GridOf(b).lower.x <= GridOf(b).upper.x && GridOf(b).lower.y <= GridOf(b).upper.y
  {
    GridMonotone(b.min.lon, b.max.lon);
    GridMonotone(b.min.lat, b.max.lat);
  }

  /** Closed rectangles overlap when they overlap on both axes. */
  predicate Overlaps(a: GridRect, b: GridRect)
  {
    a.lower.x <= b.upper.x && b.lower.x <= a.upper.x && a.lower.y <= b.upper.y && b.lower.y <= a.upper.y
  }

  /** The tree as the sequence of its entries, in insertion order. */
  datatype Tree = Tree(entries: seq<Entry>)

  const EmptyTree: Tree := Tree([])

  function Size(t: Tree): nat
  {
    |t.entries|
  }

  /** Rtree.Insert: the new entry carries the polygon, its box and the feature unchanged. */
  function Insert(t: Tree, p: Polygon, f: Feature): (u: Tree)
    ensures Size(u) == Size(t) + 1
    ensures u.entries[..Size(t)] == t.entries
    ensures var e := u.entries[Size(t)];
            e.polygon == p && e.feature == f && e.box == PolygonBox(p)
    ensures ValidBox(u.entries[Size(t)].box)
  {
    Tree(t.entries + [Entry(p, PolygonBox(p), f)])
  }

  /** One sequence is an order-preserving subsequence of another. */
  predicate Subsequence<T(==)>(a: seq<T>, b: seq<T>)
    decreases |b|
  {
    |a| == 0 || (|b| > 0 && if a[0] == b[0] then Subsequence(a[1..], b[1..]) else Subsequence(a, b[1..]))
  }

  lemma {:induction false} SubsequenceLength<T>(a: seq<T>, b: seq<T>)
    requires Subsequence(a, b)
    ensures |a| <= |b|
    decreases |b|
  {
    if |a| > 0 {
      if a[0] == b[0] {
        SubsequenceLength(a[1..], b[1..]);
      } else {
        SubsequenceLength(a, b[1..]);
      }
    }
  }

  lemma {:induction false} SubsequenceMembers<T>(a: seq<T>, b: seq<T>)
    requires Subsequence(a, b)
    ensures forall x :: x in a ==> x in b
    decreases |b|
  {
    if |a| > 0 {
      if a[0] == b[0] {
        SubsequenceMembers(a[1..], b[1..]);
        assert forall x :: x in a ==> x == a[0] || x in a[1..];
      } else {
        SubsequenceMembers(a, b[1..]);
      }
    }
  }

  /** How many of the entries have a grid rectangle overlapping q. */
  function OverlapCount(es: seq<Entry>, q: GridRect): (n: nat)
    ensures n <= |es|
  {
    if |es| == 0 then 0
    else (if Overlaps(GridOf(es[0].box), q) then 1 else 0) + OverlapCount(es[1..], q)
  }

  /** The entries whose grid rectangle overlaps q, in order, each once per position it holds in
      the tree: the assumed SearchIntersect. */
  function SearchIntersect(es: seq<Entry>, q: GridRect): (r: seq<Entry>)
    ensures |r| == OverlapCount(es, q)
    ensures Subsequence(r, es)
    ensures forall e :: e in r ==> e in es && Overlaps(GridOf(e.box), q)
    ensures forall i :: 0 <= i < |es| && Overlaps(GridOf(es[i].box), q) ==> es[i] in r
  {
    if |es| == 0 then []
    else
      var rest := SearchIntersect(es[1..], q);
      assert forall i :: 1 <= i < |es| ==> es[i] == es[1..][i - 1];
      if Overlaps(GridOf(es[0].box), q) then [es[0]] + rest else rest
  }

  /** Searching a concatenation searches each part in turn: the search neither merges equal
      entries nor reorders them. */
  lemma {:induction false} SearchAppend(a: seq<Entry>, b: seq<Entry>, q: GridRect)
    ensures SearchIntersect(a + b, q) == SearchIntersect(a, q) + SearchIntersect(b, q)
    decreases |a|
  {
    if |a| == 0 {
      assert a + b == b;
    } else {
      assert (a + b)[0] == a[0];
      assert (a + b)[1..] == a[1..] + b;
      SearchAppend(a[1..], b, q);
    }
  }

  /** Two overlapping positions i < j: the result splits at j into a part holding es[i] and a
      part headed by es[j]. */
  lemma SearchSplit(es: seq<Entry>, q: GridRect, i: nat, j: nat)
    requires i < j < |es|
    requires Overlaps(GridOf(es[i].box), q) && Overlaps(GridOf(es[j].box), q)
    ensures var x, y := SearchIntersect(es[..j], q), SearchIntersect(es[j..], q);
            SearchIntersect(es, q) == x + y && es[i] in x && |y| > 0 && y[0] == es[j]
  {
    assert es == es[..j] + es[j..];
    SearchAppend(es[..j], es[j..], q);
    assert es[..j][i] == es[i];
    assert es[j..][0] == es[j];
  }

  /** The query rectangle of Rtree.Contains: the grid rectangle of the tolerance box. */
  function QueryRect(c: Coordinate, meters: real, lonDelta: real): GridRect
    requires lonDelta >= 0.0
  {
    GridOf(ToleranceBox.RectFromCenter(c, meters, lonDelta))
  }

  /** Rtree.Contains: the entries whose boxes meet the tolerance box around c. */
  function Candidates(t: Tree, c: Coordinate, meters: real, lonDelta: real): (r: seq<Entry>)
    requires lonDelta >= 0.0
    ensures Subsequence(r, t.entries)
    ensures |r| == OverlapCount(t.entries, QueryRect(c, meters, lonDelta))
    ensures forall e :: e in r <==> e in t.entries && Overlaps(GridOf(e.box), QueryRect(c, meters, lonDelta))
  {
    SearchIntersect(t.entries, QueryRect(c, meters, lonDelta))
  }

  /** An empty tree has no candidates. */
  lemma EmptyTreeHasNoCandidates(c: Coordinate, meters: real, lonDelta: real)
    requires lonDelta >= 0.0
    ensures Candidates(EmptyTree, c, meters, lonDelta) == []
  {
  }
}

=== FILE: seqs.dfy ===
/** Flattening a sequence of sequences, as a nested append loop does. */
module Seqs {

  /** The blocks of xss, one after another. */
  function Concat<T>(xss: seq<seq<T>>): seq<T>
  {
    if |xss| == 0 then [] else xss[0] + Concat(xss[1..])
  }

  lemma AppendAssociative<T>(a: seq<T>, b: seq<T>, c: seq<T>)
    ensures (a + b) + c == a + (b + c)
  {
  }

  /** The head and tail of a concatenation whose first part is non-empty. */
  lemma HeadTailAppend<T>(a: seq<T>, b: seq<T>)
    requires |a| > 0
    ensures (a + b)[0] == a[0] && (a + b)[1..] == a[1..] + b && a == [a[0]] + a[1..]
  {
  }

  /** The first and last elements of a + m + b, for non-empty a and b. */
  lemma EndsOfAppend<T>(a: seq<T>, m: seq<T>, b: seq<T>)
    requires |a| > 0 && |b| > 0
    ensures (a + m + b)[0] == a[0] && (a + m + b)[|a + m + b| - 1] == b[|b| - 1]
  {
  }

  /** A value found in both parts of a concatenation occurs in it at least twice. */
  lemma TwiceInAppend<T>(x: seq<T>, y: seq<T>, v: T)
    requires v in x && v in y
    ensures multiset(x + y)[v] >= 2
  {
    assert multiset(x + y) == multiset(x) + multiset(y);
  }

  /** The summed block lengths. */
  function TotalLength<T>(xss: seq<seq<T>>): nat
  {
    if |xss| == 0 then 0 else |xss[0]| + TotalLength(xss[1..])
  }

  lemma {:induction false} ConcatLength<T>(xss: seq<seq<T>>)
    ensures |Concat(xss)| == TotalLength(xss)
    decreases |xss|
  {
    if |xss| > 0 {
      ConcatLength(xss[1..]);
    }
  }

  /** Flattening distributes over appending blocks. */
  lemma {:induction false} ConcatAppend<T>(a: seq<seq<T>>, b: seq<seq<T>>)
    ensures Concat(a + b) == Concat(a) + Concat(b)
    decreases |a|
  {
    if |a| == 0 {
      assert a + b == b;
    } else {
      assert (a + b)[1..] == a[1..] + b;
      ConcatAppend(a[1..], b);
    }
  }

  /** Block j of the flattening starts after the blocks before it. */
  lemma ConcatBlock<T>(xss: seq<seq<T>>, j: nat)
    requires j < |xss|
    ensures var off := |Concat(xss[..j])|;
            off + |xss[j]| <= |Concat(xss)| && Concat(xss)[off..off + |xss[j]|] == xss[j]
  {
    var before, after := xss[..j], xss[j + 1..];
    assert xss == before + ([xss[j]] + after);
    ConcatAppend(before, [xss[j]] + after);
    assert Concat([xss[j]] + after) == xss[j] + Concat(after);
  }

  /** Block j of the flattening starts at the summed lengths of the first j blocks of any
      sequence whose blocks have the same lengths. */
  lemma ConcatBlockOf<T, U>(xss: seq<seq<T>>, yss: seq<seq<U>>, j: nat)
    requires |xss| == |yss| && forall i :: 0 <= i < |xss| ==> |xss[i]| == |yss[i]|
    requires j < |xss|
    ensures var off := TotalLength(yss[..j]);
            off + |xss[j]| <= |Concat(xss)| && Concat(xss)[off..off + |xss[j]|] == xss[j]
  {
    ConcatBlock(xss, j);
    ConcatLength(xss[..j]);
    SameLengths(xss[..j], yss[..j]);
  }

  /** Blocks of equal lengths have equal total length. */
  lemma {:induction false} SameLengths<T, U>(xss: seq<seq<T>>, yss: seq<seq<U>>)
    requires |xss| == |yss| && forall i :: 0 <= i < |xss| ==> |xss[i]| == |yss[i]|
    ensures TotalLength(xss) == TotalLength(yss)
    decreases |xss|
  {
    if |xss| > 0 {
      SameLengths(xss[1..], yss[1..]);
    }
  }

  /** An element of the flattening is an element of some block. */
  lemma {:induction false} ConcatMembers<T>(xss: seq<seq<T>>)
    ensures forall x :: x in Concat(xss) ==> exists i :: 0 <= i < |xss| && x in xss[i]
    decreases |xss|
  {
    if |xss| > 0 {
      ConcatMembers(xss[1..]);
      forall x | x in Concat(xss)
        ensures exists i :: 0 <= i < |xss| && x in xss[i]
      {
        if x !in xss[0] {
          assert Concat(xss) == xss[0] + Concat(xss[1..]);
          assert x in Concat(xss[1..]);
          var i :| 0 <= i < |xss[1..]| && x in xss[1..][i];
          assert x in xss[i + 1];
        }
      }
    }
  }
}

=== FILE: slug.dfy ===
/** The fence name of a file (util.go, sluggify): the base name without its extension,
    lower-cased, each run of characters outside [a-z0-9] replaced by one '-', and dashes trimmed
    from both ends. Paths are slash-separated, as filepath.Base and filepath.Ext treat them on
    Unix. */
module Slug {
  import opened Ascii
  import Seqs

  /** s with every trailing c removed, as strings.TrimRight with a one-character cutset:
      filepath.Base strips trailing '/' this way, and sluggify trailing '-'. */
  function TrimRight(s: string, c: char): (t: string)
    ensures |t| <= |s| && t == s[..|t|]
    ensures |t| > 0 ==> t[|t| - 1] != c
    ensures forall i :: |t| <= i < |s| ==> s[i] == c
  {
    if |s| > 0 && s[|s| - 1] == c then TrimRight(s[..|s| - 1], c) else s
  }

  /** The part of s after its last slash (all of s when it has none). */
  function AfterLastSlash(s: string): (t: string)
    ensures |t| <= |s| && t == s[|s| - |t|..]
    ensures '/' !in t
    ensures |t| < |s| ==> s[|s| - |t| - 1] == '/'
  {
    if |s| == 0 then ""
    else if s[|s| - 1] == '/' then ""
    else
      var rest := AfterLastSlash(s[..|s| - 1]);
      assert s[..|s| - 1][|s| - 1 - |rest|..] + [s[|s| - 1]] == s[|s| - |rest| - 1..];
      rest + [s[|s| - 1]]
  }

  /** filepath.Base: "." for the empty path, "/" for a path of slashes, else the last element. */
  function Base(path: string): (b: string)
    ensures |b| > 0
    ensures b == "/" || '/' !in b
  {
    if path == "" then "."
    else
      var t := TrimRight(path, '/');
      var last := AfterLastSlash(t);
      if last == "" then "/" else last
  }

  /** filepath.Ext: the suffix from the last '.' of the last element, or "". */
  function Ext(s: string): (e: string)
    ensures |e| <= |s| && e == s[|s| - |e|..]
    ensures |e| > 0 ==> e[0] == '.' && '/' !in e
  {
    if |s| == 0 || s[|s| - 1] == '/' then ""
    else if s[|s| - 1] == '.' then "."
    else
      var rest := Ext(s[..|s| - 1]);
      if rest == "" then ""
      else
        assert s[..|s| - 1][|s| - 1 - |rest|..] + [s[|s| - 1]] == s[|s| - |rest| - 1..];
        rest + [s[|s| - 1]]
  }

  /** strings.TrimSuffix(s, filepath.Ext(s)): the extension is always a suffix. */
  function Stem(s: string): (t: string)
    ensures t + Ext(s) == s
  {
    s[..|s| - |Ext(s)|]
  }

  /** Drops the leading run of characters outside [a-z0-9]. */
  function DropRun(s: string): (t: string)
    ensures |t| <= |s| && t == s[|s| - |t|..]
    ensures |t| > 0 ==> IsSlugChar(t[0])
    ensures forall i :: 0 <= i < |s| - |t| ==> !IsSlugChar(s[i])
  {
    if |s| > 0 && !IsSlugChar(s[0]) then
      var t := DropRun(s[1..]);
      assert forall i :: 1 <= i < |s| ==> s[i] == s[1..][i - 1];
      t
    else s
  }

  /** Only characters of [a-z0-9] and '-', and never two dashes in a row. */
  predicate SlugShaped(s: string)
  {
    (forall i :: 0 <= i < |s| ==> IsSlugChar(s[i]) || s[i] == '-')
    && (forall i :: 0 <= i < |s| - 1 ==> !(s[i] == '-' && s[i + 1] == '-'))
  }

  /** The replacement of every maximal match of `[^a-z0-9]+` by "-". */
  function Squash(s: string): (t: string)
    ensures |t| <= |s| && SlugShaped(t)
    ensures |t| > 0 ==> (t[0] == '-' <==> !IsSlugChar(s[0]))
    decreases |s|
  {
    if |s| == 0 then ""
    else if IsSlugChar(s[0]) then [s[0]] + Squash(s[1..])
    else
      var rest := Squash(DropRun(s[1..]));
      assert |rest| > 0 ==> rest[0] != '-';
      "-" + rest
  }

  /** strings.TrimLeft(s, "-"): the leading dashes removed. */
  function TrimLeading(s: string): (t: string)
    ensures |t| <= |s| && t == s[|s| - |t|..]
    ensures |t| > 0 ==> t[0] != '-'
    ensures forall i :: 0 <= i < |s| - |t| ==> s[i] == '-'
  {
    if |s| > 0 && s[0] == '-' then
      var t := TrimLeading(s[1..]);
      assert forall i :: 1 <= i < |s| ==> s[i] == s[1..][i - 1];
      t
    else s
  }

  /** strings.Trim(s, "-"): dashes removed from both ends, leaving a slice of s. */
  function TrimDashes(s: string): (t: string)
    ensures |t| <= |TrimLeading(s)| && t == TrimLeading(s)[..|t|]
    ensures |t| > 0 ==> t[0] != '-' && t[|t| - 1] != '-'
  {
    TrimRight(TrimLeading(s), '-')
  }

  /** A slice of a slug-shaped string is slug-shaped. */
  lemma SliceKeepsShape(s: string, i: nat, j: nat)
    requires i <= j <= |s| && SlugShaped(s)
    ensures SlugShaped(s[i..j])
  {
    var t := s[i..j];
    assert forall k :: 0 <= k < |t| ==> t[k] == s[i + k];
  }

  lemma TrimKeepsShape(s: string)
    requires SlugShaped(s)
    ensures SlugShaped(TrimDashes(s))
  {
    var l := TrimLeading(s);
    SliceKeepsShape(s, |s| - |l|, |s|);
    SliceKeepsShape(l, 0, |TrimDashes(s)|);
  }

  /** sluggify */
  function Sluggify(path: string): (slug: string)
    ensures SlugShaped(slug)
    ensures |slug| > 0 ==> slug[0] != '-' && slug[|slug| - 1] != '-'
  {
    var squashed := Squash(Lower(Stem(Base(path))));
    TrimKeepsShape(squashed);
    TrimDashes(squashed)
  }

  /** The characters of s in [a-z0-9], in order. */
  function SlugChars(s: string): (t: string)
    ensures forall i :: 0 <= i < |t| ==> IsSlugChar(t[i])
  {
    if |s| == 0 then ""
    else if IsSlugChar(s[0]) then [s[0]] + SlugChars(s[1..])
    else SlugChars(s[1..])
  }

  /** s with every '-' deleted. */
  function DeleteDashes(s: string): string
  {
    if |s| == 0 then ""
    else if s[0] == '-' then DeleteDashes(s[1..])
    else [s[0]] + DeleteDashes(s[1..])
  }

  lemma {:induction false} SlugCharsAppend(a: string, b: string)
    ensures SlugChars(a + b) == SlugChars(a) + SlugChars(b)
    decreases |a|
  {
    if |a| == 0 {
      assert a + b == b;
    } else {
      assert (a + b)[1..] == a[1..] + b;
      SlugCharsAppend(a[1..], b);
    }
  }

  lemma {:induction false} DeleteDashesAppend(a: string, b: string)
    ensures DeleteDashes(a + b) == DeleteDashes(a) + DeleteDashes(b)
    decreases |a|
  {
    if |a| == 0 {
      assert a + b == b;
    } else {
      assert (a + b)[1..] == a[1..] + b;
      DeleteDashesAppend(a[1..], b);
    }
  }

  /** A run of non-slug characters contributes nothing to SlugChars. */
  lemma {:induction false} DropRunSlugChars(s: string)
    ensures SlugChars(DropRun(s)) == SlugChars(s)
    decreases |s|
  {
    if |s| > 0 && !IsSlugChar(s[0]) {
      DropRunSlugChars(s[1..]);
    }
  }

  /** Squashing only replaces non-slug runs by dashes: deleting the dashes recovers the slug
      characters of the input. */
  lemma {:induction false} SquashKeepsSlugChars(s: string)
    ensures DeleteDashes(Squash(s)) == SlugChars(s)
    decreases |s|
  {
    if |s| == 0 {
    } else if IsSlugChar(s[0]) {
      SquashKeepsSlugChars(s[1..]);
      assert ([s[0]] + Squash(s[1..]))[1..] == Squash(s[1..]);
    } else {
      var d := DropRun(s[1..]);
      SquashKeepsSlugChars(d);
      DropRunSlugChars(s[1..]);
      assert ("-" + Squash(d))[1..] == Squash(d);
    }
  }

  /** Deleting the dashes of a string made of dashes gives "". */
  lemma {:induction false} DeleteAllDashes(s: string)
    requires forall i :: 0 <= i < |s| ==> s[i] == '-'
    ensures DeleteDashes(s) == ""
    decreases |s|
  {
    if |s| > 0 {
      DeleteAllDashes(s[1..]);
    }
  }

  lemma {:induction false} LeadingKeepsNonDashes(s: string)
    ensures DeleteDashes(TrimLeading(s)) == DeleteDashes(s)
    decreases |s|
  {
    if |s| > 0 && s[0] == '-' {
      LeadingKeepsNonDashes(s[1..]);
    }
  }

  lemma {:induction false} TrailingKeepsNonDashes(s: string)
    ensures DeleteDashes(TrimRight(s, '-')) == DeleteDashes(s)
    decreases |s|
  {
    if |s| > 0 && s[|s| - 1] == '-' {
      var init := s[..|s| - 1];
      TrailingKeepsNonDashes(init);
      assert s == init + "-";
      DeleteDashesAppend(init, "-");
      assert DeleteDashes("-") == "";
    }
  }

  /** Trimming removes only dashes, so the dash-free characters are unchanged. */
  lemma {:induction false} TrimKeepsNonDashes(s: string)
    ensures DeleteDashes(TrimDashes(s)) == DeleteDashes(s)
    decreases |s|
  {
    LeadingKeepsNonDashes(s);
    TrailingKeepsNonDashes(TrimLeading(s));
  }

  /** Deleting the dashes of a slug gives the slug characters of the lower-cased stem, in order. */
  lemma SluggifyDashFree(path: string)
    ensures DeleteDashes(Sluggify(path)) == SlugChars(Lower(Stem(Base(path))))
  {
    var s := Lower(Stem(Base(path)));
    TrimKeepsNonDashes(Squash(s));
    SquashKeepsSlugChars(s);
  }

  /** A string whose dashes are all it has is made of dashes. */
  lemma {:induction false} NoneLeftAllDashes(s: string)
    requires DeleteDashes(s) == ""
    ensures forall i :: 0 <= i < |s| ==> s[i] == '-'
    decreases |s|
  {
    if |s| > 0 {
      assert s[0] == '-';
      NoneLeftAllDashes(s[1..]);
      forall i | 1 <= i < |s|
        ensures s[i] == '-'
      {
        assert s[i] == s[1..][i - 1];
      }
    }
  }

  /** A base name with no character in [a-z0-9] yields the empty slug. */
  lemma NoSlugCharsGivesEmpty(path: string)
    requires SlugChars(Lower(Stem(Base(path)))) == ""
    ensures Sluggify(path) == ""
  {
    var slug := Sluggify(path);
    SluggifyDashFree(path);
    NoneLeftAllDashes(slug);
  }

  /** Squash leaves a slug-shaped string that does not start with "-x", x outside [a-z0-9], unchanged. */
  lemma {:induction false} SquashFixesSlug(s: string)
    requires SlugShaped(s)
    requires |s| > 1 && s[0] == '-' ==> IsSlugChar(s[1])
    ensures Squash(s) == s
    decreases |s|
  {
    if |s| > 0 {
      var rest := s[1..];
      SliceKeepsShape(s, 1, |s|);
      assert |rest| > 1 ==> rest[0] == s[1] && rest[1] == s[2];
      if !IsSlugChar(s[0]) {
        assert DropRun(rest) == rest;
      }
      SquashFixesSlug(rest);
    }
  }

  /** A slug-shaped string is its own base name and has no extension. */
  lemma SlugIsOwnStem(slug: string)
    requires |slug| > 0 && SlugShaped(slug)
    ensures Base(slug) == slug && Stem(slug) == slug
  {
    assert '/' !in slug && '.' !in slug by {
      forall i | 0 <= i < |slug|
        ensures slug[i] != '/' && slug[i] != '.'
      {
        assert IsSlugChar(slug[i]) || slug[i] == '-';
      }
    }
    NoSlashIsOwnBase(slug);
    NoDotHasNoExt(slug);
    assert slug[..|slug|] == slug;
  }

  /** A non-empty name without a slash is its own base name. */
  lemma NoSlashIsOwnBase(s: string)
    requires |s| > 0 && '/' !in s
    ensures Base(s) == s
  {
    assert forall i :: 0 <= i < |s| ==> s[i] != '/';
    assert TrimRight(s, '/') == s;
  }

  /** A name without a dot has no extension. */
  lemma NoDotHasNoExt(s: string)
    requires '.' !in s
    ensures Ext(s) == ""
  {
    assert forall i :: 0 <= i < |s| ==> s[i] != '.';
  }

  /** The empty slug is a fixed point: the base of "" is ".", whose stem is "". */
  lemma EmptySlug()
    ensures Sluggify("") == ""
  {
    assert Base("") == ".";
    DotHasEmptyStem(".");
    assert Lower("") == "";
    assert TrimDashes(Squash("")) == "";
  }

  lemma DotHasEmptyStem(d: string)
    requires d == "."
    ensures Stem(d) == ""
  {
    assert Ext(d) == d;
  }

  /** A slug-shaped string passes the path and case steps unchanged. */
  lemma SlugPathStepsFix(slug: string)
    requires |slug| > 0 && SlugShaped(slug)
    ensures Lower(Stem(Base(slug))) == slug
  {
    SlugIsOwnStem(slug);
    SlugShapedIsLower(slug);
    LowerIdempotent(slug);
  }

  lemma SlugShapedIsLower(s: string)
    requires SlugShaped(s)
    ensures forall i :: 0 <= i < |s| ==> !IsUpper(s[i])
  {
    forall i | 0 <= i < |s|
      ensures !IsUpper(s[i])
    {
      assert IsSlugChar(s[i]) || s[i] == '-';
    }
  }

  /** A slug-shaped string with no dash at either end passes the replace and trim steps unchanged. */
  lemma SlugTextStepsFix(slug: string)
    requires |slug| > 0 && SlugShaped(slug) && slug[0] != '-' && slug[|slug| - 1] != '-'
    ensures TrimDashes(Squash(slug)) == slug
  {
    SquashFixesSlug(slug);
    assert TrimLeading(slug) == slug;
    assert TrimRight(slug, '-') == slug;
  }

  /** sluggify is idempotent. */
  lemma SluggifyIdempotent(path: string)
    ensures Sluggify(Sluggify(path)) == Sluggify(path)
  {
    var slug := Sluggify(path);
    if slug == "" {
      EmptySlug();
    } else {
      SlugPathStepsFix(slug);
      SlugTextStepsFix(slug);
    }
  }

  /** Only the last path element counts: a directory prefix is ignored. */
  lemma BaseIgnoresDirectory(dir: string, name: string)
    requires |name| > 0 && '/' !in name
    ensures Base(dir + "/" + name) == name
  {
    var p := dir + "/" + name;
    assert TrimRight(p, '/') == p;
    var last := AfterLastSlash(p);
    assert p[|p| - |name|..] == name;
    assert p[|p| - |name| - 1] == '/';
  }

  /** The extension runs from the last dot, when no slash follows it. */
  lemma {:induction false} ExtFromLastDot(s: string, k: nat)
    requires k < |s| && s[k] == '.'
    requires forall j :: k < j < |s| ==> s[j] != '.' && s[j] != '/'
    ensures Ext(s) == s[k..]
    decreases |s|
  {
    if k < |s| - 1 {
      var init := s[..|s| - 1];
      assert forall j :: k < j < |init| ==> init[j] == s[j];
      ExtFromLastDot(init, k);
      assert s[k..] == init[k..] + [s[|s| - 1]];
    }
  }

  /** The stem is the name before the last dot. */
  lemma StemDropsExtension(name: string, ext: string)
    requires '.' !in ext && '/' !in ext
    ensures Stem(name + "." + ext) == name
  {
    var s := name + "." + ext;
    assert forall j :: |name| < j < |s| ==> s[j] == ext[j - |name| - 1];
    ExtFromLastDot(s, |name|);
    assert s[..|name|] == name;
  }

  /** Only characters of [a-z0-9]. */
  predicate Word(s: string)
  {
    forall i :: 0 <= i < |s| ==> IsSlugChar(s[i])
  }

  lemma WordTail(a: string)
    requires Word(a) && |a| > 0
    ensures IsSlugChar(a[0]) && Word(a[1..])
  {
    assert forall i :: 0 <= i < |a[1..]| ==> a[1..][i] == a[i + 1];
  }

  /** One step of Squash at a character of [a-z0-9]: it is kept. */
  lemma SquashWordStep(s: string)
    requires |s| > 0 && IsSlugChar(s[0])
    ensures Squash(s) == [s[0]] + Squash(s[1..])
  {
  }

  /** One step of Squash at any other character: it and the rest of its run become one dash. */
  lemma SquashSeparatorStep(s: string)
    requires |s| > 0 && !IsSlugChar(s[0])
    ensures Squash(s) == "-" + Squash(DropRun(s[1..]))
  {
  }

  /** A run of [a-z0-9] characters passes Squash unchanged, ahead of whatever follows. */
  lemma {:induction false} SquashSlugPrefix(a: string, b: string)
    requires Word(a)
    ensures Squash(a + b) == a + Squash(b)
    decreases |a|
  {
    if |a| == 0 {
      assert a + b == b;
    } else {
      WordTail(a);
      Seqs.HeadTailAppend(a, b);
      SquashWordStep(a + b);
      SquashSlugPrefix(a[1..], b);
      Seqs.AppendAssociative([a[0]], a[1..], Squash(b));
    }
  }

  /** A run of characters none of which is in [a-z0-9]; a separator is a non-empty one. */
  predicate NonWord(s: string)
  {
    forall i :: 0 <= i < |s| ==> !IsSlugChar(s[i])
  }

  predicate Separator(s: string)
  {
    |s| > 0 && NonWord(s)
  }

  lemma NonWordTail(s: string)
    requires NonWord(s) && |s| > 0
    ensures !IsSlugChar(s[0]) && NonWord(s[1..])
  {
    assert forall i :: 0 <= i < |s[1..]| ==> s[1..][i] == s[i + 1];
  }

  /** DropRun removes exactly a leading run of separator characters, up to the next word. */
  lemma {:induction false} DropNonWord(run: string, b: string)
    requires NonWord(run) && (|b| == 0 || IsSlugChar(b[0]))
    ensures DropRun(run + b) == b
    decreases |run|
  {
    if |run| == 0 {
      assert run + b == b;
    } else {
      NonWordTail(run);
      Seqs.HeadTailAppend(run, b);
      DropNonWord(run[1..], b);
    }
  }

  /** A separator in front of a word, or at the end, becomes a single dash. */
  lemma SquashSeparator(run: string, b: string)
    requires Separator(run) && (|b| == 0 || IsSlugChar(b[0]))
    ensures Squash(run + b) == "-" + Squash(b)
  {
    NonWordTail(run);
    Seqs.HeadTailAppend(run, b);
    SquashSeparatorStep(run + b);
    DropNonWord(run[1..], b);
  }

  /** A word, then a separator, then the rest: the word is kept and the separator becomes one dash. */
  lemma SquashRun(a: string, run: string, b: string)
    requires Word(a) && Separator(run) && (|b| == 0 || IsSlugChar(b[0]))
    ensures Squash(a + run + b) == a + "-" + Squash(b)
  {
    Seqs.AppendAssociative(a, run, b);
    SquashSlugPrefix(a, run + b);
    SquashSeparator(run, b);
    Seqs.AppendAssociative(a, "-", Squash(b));
  }

  /** One separator between two words of [a-z0-9] becomes a single dash. */
  lemma SquashTwoWords(a: string, c: char, b: string)
    requires Word(a) && Word(b) && !IsSlugChar(c)
    ensures Squash(a + [c] + b) == a + "-" + b
  {
    assert NonWord([c]);
    SquashRun(a, [c], b);
    SquashSlugPrefix(b, "");
    assert b + "" == b;
  }

  /** Trimming trailing c from x + y only reaches into y when y starts with another character. */
  lemma {:induction false} TrimRightAppend(x: string, y: string, c: char)
    requires |y| > 0 && y[0] != c
    ensures TrimRight(x + y, c) == x + TrimRight(y, c)
    decreases |y|
  {
    var xy := x + y;
    assert xy[|xy| - 1] == y[|y| - 1];
    if y[|y| - 1] == c {
      assert xy[..|xy| - 1] == x + y[..|y| - 1];
      TrimRightAppend(x, y[..|y| - 1], c);
    }
  }

  /** The words of a text with the separators between them: ws[0] + seps[0] + ws[1] + ... */
  function Interleave(ws: seq<string>, seps: seq<string>): string
    requires |ws| > 0 && |seps| == |ws| - 1
    decreases |ws|
  {
    if |ws| == 1 then ws[0] else ws[0] + seps[0] + Interleave(ws[1..], seps[1..])
  }

  /** strings.Join(ws, "-") */
  function JoinDash(ws: seq<string>): string
    requires |ws| > 0
    decreases |ws|
  {
    if |ws| == 1 then ws[0] else ws[0] + "-" + JoinDash(ws[1..])
  }

  predicate Words(ws: seq<string>)
  {
    forall i :: 0 <= i < |ws| ==> |ws[i]| > 0 && Word(ws[i])
  }

  predicate Separators(seps: seq<string>)
  {
    forall i :: 0 <= i < |seps| ==> Separator(seps[i])
  }

  lemma InterleaveStartsWithWord(ws: seq<string>, seps: seq<string>)
    requires |ws| > 0 && |seps| == |ws| - 1 && Words(ws)
    ensures |Interleave(ws, seps)| > 0 && Interleave(ws, seps)[0] == ws[0][0]
  {
  }

  /** The last word of a text, followed by whatever separator ends it, is kept as it is. */
  lemma SlugOfLastWord(a: string, trail: string)
    requires Word(a) && |a| > 0 && NonWord(trail)
    ensures TrimDashes(Squash(a + trail)) == a
  {
    assert IsSlugChar(a[0]) && IsSlugChar(a[|a| - 1]);
    if |trail| == 0 {
      assert a + trail == a + "";
      SquashSlugPrefix(a, "");
      assert a + "" == a;
      DashFreeEndsTrim(a);
    } else {
      assert a + trail == a + trail + "";
      SquashRun(a, trail, "");
      assert a + "-" + Squash("") == a + "-";
      TrailingDashTrim(a);
    }
  }

  /** One dash after text with no dash at either end is all that strings.Trim(s, "-") removes. */
  lemma TrailingDashTrim(a: string)
    requires |a| > 0 && a[0] != '-' && a[|a| - 1] != '-'
    ensures TrimDashes(a + "-") == a
  {
    var t := a + "-";
    assert TrimLeading(t) == t by {
      assert t[0] == a[0];
    }
    assert TrimRight(t, '-') == TrimRight(a, '-') by {
      assert t[..|t| - 1] == a;
    }
  }

  /** A text made of words, the separators between them and a trailing separator slugs to the
      words joined by single dashes. */
  lemma {:induction false} SlugOfWords(ws: seq<string>, seps: seq<string>, trail: string)
    requires |ws| > 0 && |seps| == |ws| - 1 && Words(ws) && Separators(seps) && NonWord(trail)
    ensures TrimDashes(Squash(Interleave(ws, seps) + trail)) == JoinDash(ws)
    decreases |ws|
  {
    if |ws| == 1 {
      SlugOfLastWord(ws[0], trail);
    } else {
      var a, run := ws[0], seps[0];
      var rest := Interleave(ws[1..], seps[1..]) + trail;
      assert Words(ws[1..]) && Separators(seps[1..]) by {
        assert forall i :: 0 <= i < |ws| - 1 ==> ws[1..][i] == ws[i + 1];
        assert forall i :: 0 <= i < |seps| - 1 ==> seps[1..][i] == seps[i + 1];
      }
      InterleaveStartsWithWord(ws[1..], seps[1..]);
      assert |rest| > 0 && IsSlugChar(rest[0]) by {
        WordTail(ws[1]);
      }
      assert Interleave(ws, seps) + trail == a + run + rest;
      SquashRun(a, run, rest);
      SlugOfWords(ws[1..], seps[1..], trail);
      var sr := Squash(rest);
      assert |sr| > 0 && sr[0] == rest[0];
      WordTail(a);
      assert (a + "-" + sr)[0] == a[0];
      TrimRightAppend(a + "-", sr, '-');
    }
  }

  /** A leading separator is dropped whole. */
  lemma SlugIgnoresLeadingRun(lead: string, text: string)
    requires NonWord(lead) && |text| > 0 && IsSlugChar(text[0])
    ensures TrimDashes(Squash(lead + text)) == TrimDashes(Squash(text))
  {
    if |lead| == 0 {
      assert lead + text == text;
    } else {
      SquashSeparator(lead, text);
      var st := Squash(text);
      assert ("-" + st)[1..] == st;
    }
  }

  /** An optional separator, words with separators between them and an optional separator slug
      to the words joined by single dashes. */
  lemma SlugOfText(lead: string, ws: seq<string>, seps: seq<string>, trail: string)
    requires |ws| > 0 && |seps| == |ws| - 1 && Words(ws) && Separators(seps)
    requires NonWord(lead) && NonWord(trail)
    ensures TrimDashes(Squash(lead + Interleave(ws, seps) + trail)) == JoinDash(ws)
  {
    var text := Interleave(ws, seps) + trail;
    InterleaveStartsWithWord(ws, seps);
    WordTail(ws[0]);
    assert lead + Interleave(ws, seps) + trail == lead + text;
    SlugIgnoresLeadingRun(lead, text);
    SlugOfWords(ws, seps, trail);
  }

  /** sluggify of a path whose lower-cased stem is made of words and separators: the words joined
      by single dashes, whatever separators stood between, before or after them. */
  lemma SluggifyJoinsWords(path: string, lead: string, ws: seq<string>, seps: seq<string>, trail: string)
    requires |ws| > 0 && |seps| == |ws| - 1 && Words(ws) && Separators(seps)
    requires NonWord(lead) && NonWord(trail)
    requires Lower(Stem(Base(path))) == lead + Interleave(ws, seps) + trail
    ensures Sluggify(path) == JoinDash(ws)
  {
    SlugOfText(lead, ws, seps, trail);
  }

  /** The example of the fence loader: "dir/Manila City.json" is indexed as "manila-city". */
  lemma ManilaCity()
    ensures Sluggify("dir/Manila City.json") == "manila-city"
  {
    ManilaBase();
    ManilaStem();
    ManilaLower("Manila City");
    ManilaText();
  }

  lemma ManilaBase()
    ensures Base("dir/Manila City.json") == "Manila City.json"
  {
    var name := "Manila City.json";
    assert '/' !in name;
    assert "dir/Manila City.json" == "dir" + "/" + name;
    BaseIgnoresDirectory("dir", name);
  }

  lemma ManilaStem()
    ensures Stem("Manila City.json") == "Manila City"
  {
    assert '.' !in "json" && '/' !in "json";
    assert "Manila City.json" == "Manila City" + "." + "json";
    StemDropsExtension("Manila City", "json");
  }

  lemma ManilaLower(s: string)
    requires s == "Manila City"
    ensures Lower(s) == "manila" + [' '] + "city"
  {
    var t, u := Lower(s), "manila" + [' '] + "city";
    assert |t| == |u|;
    forall i | 0 <= i < |t|
      ensures t[i] == u[i]
    {
      assert t[i] == LowerChar(s[i]);
    }
  }

  lemma ManilaText()
    ensures TrimDashes(Squash("manila" + [' '] + "city")) == "manila-city"
  {
    assert Word("manila") && Word("city");
    TwoWordsSlug("manila", ' ', "city");
    assert "manila" + "-" + "city" == "manila-city";
  }

  /** Two words with one other character between them slug to word-word. */
  lemma TwoWordsSlug(a: string, c: char, b: string)
    requires Word(a) && |a| > 0 && Word(b) && |b| > 0 && !IsSlugChar(c)
    ensures TrimDashes(Squash(a + [c] + b)) == a + "-" + b
  {
    var t := a + "-" + b;
    assert Squash(a + [c] + b) == t by {
      SquashTwoWords(a, c, b);
    }
    assert TrimDashes(t) == t by {
      Seqs.EndsOfAppend(a, "-", b);
      assert IsSlugChar(a[0]) && IsSlugChar(b[|b| - 1]);
      DashFreeEndsTrim(t);
    }
  }

  /** Text that neither starts nor ends with '-' is left alone by strings.Trim(s, "-"). */
  lemma DashFreeEndsTrim(t: string)
    requires |t| > 0 && t[0] != '-' && t[|t| - 1] != '-'
    ensures TrimDashes(t) == t
  {
    assert TrimLeading(t) == t;
  }
}

=== FILE: tolerance.dfy ===
/** The tolerance box of rectFromCenter (rtree.go): a centre and a radius in metres become the
    query rectangle, with pole and antimeridian clamps and longitude normalisation.
    The spherical trigonometry that yields the longitude half-width is an input, `lonDelta`. */
module ToleranceBox {
  import opened Geometry

  type PositiveReal = x: real | x > 0.0 witness 1.0

  /** math.Pi. Left abstract: every property here holds for any positive value. */
  const AbstractPi: PositiveReal

  const Pi: real := AbstractPi

  /** The mean Earth radius in metres. */
  const EarthRadius: real := 6371000.0

  /** Degrees to radians, the `radians` factor of the source. */
  function ToRadians(deg: real): real
  {
    deg * (Pi / 180.0)
  }

  /** Radians to degrees, the `degrees` factor of the source. */
  function ToDegrees(rad: real): real
  {
    rad * (180.0 / Pi)
  }

  lemma ToDegreesOfPi()
    ensures ToDegrees(Pi) == 180.0 && ToDegrees(-Pi) == -180.0
  {
  }

  lemma ToDegreesMonotone(a: real, b: real)
    ensures a <= b ==> ToDegrees(a) <= ToDegrees(b)
    ensures a < b ==> ToDegrees(a) < ToDegrees(b)
  {
    if a <= b {
      MulRight(a, b, 180.0 / Pi);
    }
    if a < b {
      MulRightStrict(a, b, 180.0 / Pi);
    }
  }

  /** math.Mod on a non-negative dividend, where truncation and floor agree. */
  function Mod(x: real, y: real): (m: real)
    requires x >= 0.0 && y > 0.0
    ensures 0.0 <= m < y
  {
    var f := (x / y).Floor;
    QuotientBounds(x, y, f);
    x - y * f as real
  }

  /** The floor f of x / y places x in [f*y, (f+1)*y). */
  lemma QuotientBounds(x: real, y: real, f: int)
    requires y > 0.0 && f == (x / y).Floor
    ensures f as real * y <= x < (f + 1) as real * y
  {
    var q := x / y;
    assert q * y == x;
    assert f as real <= q < (f + 1) as real;
    MulRight(f as real, q, y);
    MulRightStrict(q, (f + 1) as real, y);
  }

  lemma MulRight(a: real, b: real, y: real)
    requires y > 0.0 && a <= b
    ensures a * y <= b * y
  {
  }

  lemma MulRightStrict(a: real, b: real, y: real)
    requires y > 0.0 && a < b
    ensures a * y < b * y
  {
  }

  /** Mod is determined by the quotient: if x / y lies in [k, k+1) then Mod(x, y) == x - k*y. */
  lemma ModByQuotient(x: real, y: real, k: int)
    requires x >= 0.0 && y > 0.0
    requires k as real <= x / y < (k + 1) as real
    ensures Mod(x, y) == x - y * k as real
  {
    var q := x / y;
    var f := q.Floor;
    assert f as real <= q < f as real + 1.0;
    assert f == k;
  }

  lemma QuotientAtLeast(x: real, y: real, lo: real)
    requires y > 0.0 && lo * y <= x
    ensures lo <= x / y
  {
  }

  lemma QuotientBelow(x: real, y: real, hi: real)
    requires y > 0.0 && x < hi * y
    ensures x / y < hi
  {
  }

  /** Latitude and longitude bounds, in radians. */
  datatype Bounds = Bounds(minLat: real, maxLat: real, minLon: real, maxLon: real)

  /** The unclamped bounds: the latitude band lat +- meters/EarthRadius, the longitudes lon +- lonDelta. */
  function Band(c: Coordinate, meters: real, lonDelta: real): (b: Bounds)
    ensures meters >= 0.0 ==> b.minLat <= b.maxLat
    ensures lonDelta >= 0.0 ==> b.minLon <= b.maxLon
    ensures b.maxLat - b.minLat == 2.0 * (meters / EarthRadius)
  {
    var lat := ToRadians(c.lat);
    var lon := ToRadians(c.lon);
    var r := meters / EarthRadius;
    Bounds(lat - r, lat + r, lon - lonDelta, lon + lonDelta)
  }

  /** The three clamps, in source order: over the north pole, over the south pole, across the
      antimeridian. Each pole case widens the longitudes to the full circle. */
  function Clamp(b: Bounds): (k: Bounds)
    ensures b.maxLat > Pi / 2.0 ==> k.maxLat == Pi / 2.0 && k.minLon == -Pi && k.maxLon == Pi
    ensures b.maxLat <= Pi / 2.0 ==> k.maxLat == b.maxLat
    ensures b.minLat < -Pi / 2.0 ==> k.minLat == -Pi / 2.0 && k.minLon == -Pi && k.maxLon == Pi
    ensures b.minLat >= -Pi / 2.0 ==> k.minLat == b.minLat
    ensures (b.minLon < -Pi || b.maxLon > Pi) ==> k.minLon == -Pi && k.maxLon == Pi
    ensures b.maxLat <= Pi / 2.0 && b.minLat >= -Pi / 2.0 && -Pi <= b.minLon && b.maxLon <= Pi ==> k == b
    ensures -Pi <= k.minLon && k.maxLon <= Pi
    ensures b.minLon <= b.maxLon ==> k.minLon <= k.maxLon
  {
    var b1 := if b.maxLat > Pi / 2.0 then b.(minLon := -Pi, maxLat := Pi / 2.0, maxLon := Pi) else b;
    var b2 := if b1.minLat < -Pi / 2.0 then b1.(minLat := -Pi / 2.0, minLon := -Pi, maxLon := Pi) else b1;
    if b2.minLon < -Pi || b2.maxLon > Pi then b2.(minLon := -Pi, maxLon := Pi) else b2
  }

  /** The normalisation `Mod(v + 3*Pi, 2*Pi) - Pi`, for a clamped longitude. */
  function NormaliseLon(v: real): (w: real)
    requires -Pi <= v
    ensures -Pi <= w < Pi
  {
    Mod(v + 3.0 * Pi, 2.0 * Pi) - Pi
  }

  /** Normalisation keeps every longitude of [-Pi, Pi) and sends Pi to -Pi. */
  lemma NormaliseLonFixesHalfOpenRange(v: real)
    requires -Pi <= v <= Pi
    ensures v < Pi ==> NormaliseLon(v) == v
    ensures v == Pi ==> NormaliseLon(v) == -Pi
  {
    var x, y := v + 3.0 * Pi, 2.0 * Pi;
    if v < Pi {
      QuotientAtLeast(x, y, 1.0);
      QuotientBelow(x, y, 2.0);
      ModByQuotient(x, y, 1);
    } else {
      QuotientAtLeast(x, y, 2.0);
      QuotientBelow(x, y, 3.0);
      ModByQuotient(x, y, 2);
    }
  }

  /** The two corners rectFromCenter builds from clamped bounds, in degrees: lower from the
      minima, upper from the maxima, each longitude normalised. */
  function Corners(k: Bounds): (Coordinate, Coordinate)
    requires -Pi <= k.minLon && -Pi <= k.maxLon
  {
    (Coordinate(ToDegrees(k.minLat), ToDegrees(NormaliseLon(k.minLon))),
     Coordinate(ToDegrees(k.maxLat), ToDegrees(NormaliseLon(k.maxLon))))
  }

  /** rectFromCenter: computeBox of the polygon through the two corners, so the query box
      never fails NewBox, even when the corners are out of order. */
  function RectFromCenter(c: Coordinate, meters: real, lonDelta: real): (q: Box)
    requires lonDelta >= 0.0
    ensures ValidBox(q) && NewBox(q.min, q.max).Success?
  {
    var corners := Corners(Clamp(Band(c, meters, lonDelta)));
    RingBox([corners.0, corners.1])
  }

  /** The query box is the hull of the two corners, and its longitudes lie in [-180, 180). */
  lemma RectFromCenterIsCornerHull(c: Coordinate, meters: real, lonDelta: real)
    requires lonDelta >= 0.0
    ensures var (lower, upper) := Corners(Clamp(Band(c, meters, lonDelta)));
            RectFromCenter(c, meters, lonDelta) == PairHull(lower, upper)
    ensures var q := RectFromCenter(c, meters, lonDelta);
            -180.0 <= q.min.lon && q.max.lon < 180.0
  {
    var k := Clamp(Band(c, meters, lonDelta));
    var (lower, upper) := Corners(k);
    PairBox(lower, upper);
    ToDegreesOfPi();
    ToDegreesMonotone(-Pi, NormaliseLon(k.minLon));
    ToDegreesMonotone(NormaliseLon(k.minLon), Pi);
    ToDegreesMonotone(-Pi, NormaliseLon(k.maxLon));
    ToDegreesMonotone(NormaliseLon(k.maxLon), Pi);
  }

  /** When the latitude band reaches over a pole, the clamps widen the longitudes to [-Pi, Pi],
      but normalisation then sends Pi to -Pi: the box collapses onto longitude -180. */
  lemma PoleCaseCollapsesLongitude(c: Coordinate, meters: real, lonDelta: real)
    requires lonDelta >= 0.0
    requires ToRadians(c.lat) + meters / EarthRadius > Pi / 2.0
          || ToRadians(c.lat) - meters / EarthRadius < -Pi / 2.0
    ensures RectFromCenter(c, meters, lonDelta).min.lon == -180.0
    ensures RectFromCenter(c, meters, lonDelta).max.lon == -180.0
  {
    var k := Clamp(Band(c, meters, lonDelta));
    assert k.minLon == -Pi && k.maxLon == Pi;
    FullCircleCollapses(k);
    RectFromCenterIsCornerHull(c, meters, lonDelta);
  }

  /** The same collapse when the longitude span crosses the antimeridian. */
  lemma AntimeridianCaseCollapsesLongitude(c: Coordinate, meters: real, lonDelta: real)
    requires lonDelta >= 0.0
    requires ToRadians(c.lon) - lonDelta < -Pi || ToRadians(c.lon) + lonDelta > Pi
    ensures RectFromCenter(c, meters, lonDelta).min.lon == -180.0
    ensures RectFromCenter(c, meters, lonDelta).max.lon == -180.0
  {
    var k := Clamp(Band(c, meters, lonDelta));
    assert k.minLon == -Pi && k.maxLon == Pi;
    FullCircleCollapses(k);
    RectFromCenterIsCornerHull(c, meters, lonDelta);
  }

  /** Clamped longitudes [-Pi, Pi] give two corners at longitude -180. */
  lemma FullCircleCollapses(k: Bounds)
    requires k.minLon == -Pi && k.maxLon == Pi
    ensures Corners(k).0.lon == -180.0 && Corners(k).1.lon == -180.0
  {
    NormaliseLonFixesHalfOpenRange(-Pi);
    NormaliseLonFixesHalfOpenRange(Pi);
    ToDegreesOfPi();
  }

  /** Away from the poles and the antimeridian, the box is the unclamped band (the centre
      widened by the angular radius in latitude and by lonDelta in longitude) in degrees. */
  lemma InteriorCaseIsCentredBand(c: Coordinate, meters: real, lonDelta: real)
    requires lonDelta >= 0.0 && meters >= 0.0
    requires var b := Band(c, meters, lonDelta);
             -Pi / 2.0 <= b.minLat && b.maxLat <= Pi / 2.0 && -Pi <= b.minLon && b.maxLon < Pi
    ensures var b := Band(c, meters, lonDelta);
            RectFromCenter(c, meters, lonDelta)
              == Box(Coordinate(ToDegrees(b.minLat), ToDegrees(b.minLon)), Coordinate(ToDegrees(b.maxLat), ToDegrees(b.maxLon)))
  {
    var b := Band(c, meters, lonDelta);
    assert Clamp(b) == b;
    NormaliseLonFixesHalfOpenRange(b.minLon);
    NormaliseLonFixesHalfOpenRange(b.maxLon);
    ToDegreesMonotone(b.minLat, b.maxLat);
    ToDegreesMonotone(b.minLon, b.maxLon);
    var (lower, upper) := Corners(b);
    assert lower == Coordinate(ToDegrees(b.minLat), ToDegrees(b.minLon));
    assert upper == Coordinate(ToDegrees(b.maxLat), ToDegrees(b.maxLon));
    PairBox(lower, upper);
  }
}
